=== FILE: README.md ===
# Speech emotion recognition UI — a Dafny model of its core logic

The application records speech in the browser, sends audio to an emotion
recognition service, and shows the strongest emotions and a
valence/arousal picture of the speaker. This project models the logic that
decides what is recorded, what is sent, and what is shown. It then proves
what that logic guarantees. The network, the browser media APIs and the
rendering are not modelled.

Modules, following the structure of the program:

- `Records`: the JavaScript plain objects used as `Record<string, number>`. They are
  ordered association lists: assigning to an existing key keeps its place,
  and a new key goes last. `Object.entries` lists keys in that order.
- `Text`: the `toLowerCase` applied to the labels the service returns.
- `EmotionUtils` (`app/utils/emotionUtils.ts`):
  - `formatVADForChart`;
  - `aggregateEmotionScores`, proved against a reference per-emotion sum;
  - `getTopEmotions`, proved to return a true top N drawn from its input.
- `RollingWindow`: the five-second history filter shared by both live
  analyzers.
- `RollingAggregator` (`app/emotion-recognition/AudioEmotionAnalyzer.tsx`):
  the handling of each new segment. It covers the clamped valence/arousal trail, the
  history push and prune, and the re-ranking of the window.
- `StreamingAggregator` (`src/components/main.tsx`): the handler for every
  recorded chunk, plus the seconds counter and the effect cleanup.
- `UploadAnalyzer` (`src/components/AudioEmotionAnalyzer.tsx`):
  - the seven-emotion score table built from an uploaded file's reply;
  - the leading emotion;
  - deleting the upload;
  - the three-per-row legend.
- `Segmenter` (`app/hooks/useAudioRecording.ts`): the segmenting recorder
  hook. It covers the once-per-second timer that cuts three-second segments, the
  delayed finalization callbacks, and stopping. An invariant is proved over every run of
  events. As a result, the segments are non-empty, in time order, without overlap, and no
  segment key is scheduled twice.
- `ClipRecorder` (`app/archive/test.tsx`):
  - the archived five-second clip recorder and its 100 ms timer;
  - the cutting of a clip out of a decoded buffer.
- `VaRadar` (`app/hooks/VARadar.tsx`): how a trail point becomes a circle in
  the 300 × 300 radar.

Inputs the logic does not compute are parameters:

- the parsed reply of the service (`None` when the request or the parse
  fails);
- the current time;
- whether the microphone is granted;
- the ranking function applied in `processLatestSegment`;
- the decoded audio channels.

## Model

| member | source | states |
|---|---|---|
| Records.Put | app/utils/emotionUtils.ts:42 | Assigning a key makes it present and reads back the new value; every other key reads as before |
| Records.PutKeyOrder | app/utils/emotionUtils.ts:42 | An existing key keeps its position and a new key becomes the last one, which is the order `Object.entries` later lists |
| Records.PutDistinct | app/utils/emotionUtils.ts:42 | Assignment never duplicates a key |
| Records.Get | app/utils/emotionUtils.ts:42 | A lookup finds a value exactly when the key is present |
| Text.Lower | src/components/main.tsx:128 | Lower-casing keeps the length and maps each ASCII capital to its small letter, leaving other characters alone |
| Text.LowerIsLower | src/components/AudioEmotionAnalyzer.tsx:157 | A lower-cased label has no capitals, and a label without capitals is unchanged |
| Text.LowerIdempotent | src/components/AudioEmotionAnalyzer.tsx:157 | Lower-casing twice is the same as lower-casing once |
| Audio.SizeOfNonEmpty | app/hooks/useAudioRecording.ts:143-149 | A blob built from chunks that each carry data has data exactly when there is at least one chunk |
| EmotionUtils.FormatVadForChart | app/utils/emotionUtils.ts:10-29 | Two points, arousal then valence. A `vad` object supplies them, with a missing component reading 0. Otherwise an array longer than 8 supplies element 8's score and element 9's score, or 0 without element 9. Anything else gives 0 and 0 |
| EmotionUtils.Aggregate | app/utils/emotionUtils.ts:36-46 | The totals have one distinct key per label of the input, and each label's total equals the independent per-label sum `SumOf` |
| EmotionUtils.AggregateEmpty | app/utils/emotionUtils.ts:39-45 | The totals are an empty object exactly when the input is empty |
| EmotionUtils.SumOfAppend | app/utils/emotionUtils.ts:41-43 | The per-label sum of two concatenated lists is the sum of their per-label sums |
| EmotionUtils.AggregateAppend | app/utils/emotionUtils.ts:36-46 | Aggregating a concatenation gives the union of the keys and the key-wise sum of the two totals |
| EmotionUtils.Insert | app/utils/emotionUtils.ts:59 | Inserting into a non-increasing list gives a non-increasing list with exactly one more element, the inserted one |
| EmotionUtils.SortByScore | app/utils/emotionUtils.ts:58-59 | The sort returns a permutation of its input, ordered by non-increasing score |
| EmotionUtils.SortKeySet | app/utils/emotionUtils.ts:58-59 | Sorting keeps the set of keys |
| EmotionUtils.SortDistinct | app/utils/emotionUtils.ts:58-59 | Sorting entries with distinct keys keeps them distinct |
| EmotionUtils.SliceEnd | app/utils/emotionUtils.ts:60 | `slice(0, n)` stops within the list, at `n` when `0 <= n` is below the length |
| EmotionUtils.GetTopEmotions | app/utils/emotionUtils.ts:54-62 | The result has `min(topCount, #entries)` elements, sorted by score, all drawn from the input and distinct when its keys are. No input entry left out scores above any entry kept |
| EmotionUtils.TopLeadIsMaximal | app/utils/emotionUtils.ts:58-60 | For a positive count and a non-empty input, the first entry returned is an input entry at least as large as every input entry |
| RollingWindow.Window | app/emotion-recognition/AudioEmotionAnalyzer.tsx:139-141 | Filtering never lengthens the history |
| RollingWindow.WindowMembers | app/emotion-recognition/AudioEmotionAnalyzer.tsx:139-141 | An entry is in the window exactly when it is in the history and at most 5000 ms older than now |
| RollingWindow.WindowAppend | app/emotion-recognition/AudioEmotionAnalyzer.tsx:139-141 | Filtering distributes over concatenation, so the window keeps the history's order |
| RollingWindow.WindowIdempotent | app/emotion-recognition/AudioEmotionAnalyzer.tsx:151-153 | Pruning again at the same instant removes nothing more |
| RollingWindow.WindowOfRecent | app/emotion-recognition/AudioEmotionAnalyzer.tsx:151-153 | A history whose entries are all recent is its own window |
| RollingWindow.Stamp | app/emotion-recognition/AudioEmotionAnalyzer.tsx:131-137 | One history entry per top emotion, with its label and score, all stamped with the same time |
| RollingWindow.AsEntries | app/emotion-recognition/AudioEmotionAnalyzer.tsx:143 | History entries read as label/score pairs, one for one |
| RollingAggregator.Clamp | app/emotion-recognition/AudioEmotionAnalyzer.tsx:117-119 | The result lies in [0, 1]. A value inside is kept, a value below becomes 0 and a value above becomes 1 |
| RollingAggregator.ClampIdempotent | app/emotion-recognition/AudioEmotionAnalyzer.tsx:117 | Clamping twice is the same as clamping once |
| RollingAggregator.LatestSegment | app/emotion-recognition/AudioEmotionAnalyzer.tsx:65-66 | A segment is submitted exactly when there is one, and it is the last |
| RollingAggregator.AddVadPoint | app/emotion-recognition/AudioEmotionAnalyzer.tsx:121-129 | The trail grows by one clamped point marked new, and every earlier point is kept but marked old |
| RollingAggregator.AddVadPointMarksOnlyLast | app/emotion-recognition/AudioEmotionAnalyzer.tsx:121-129 | After an update exactly the last point is new. All points lie in the unit square when the earlier ones did |
| RollingAggregator.ProcessLatestSegment | app/emotion-recognition/AudioEmotionAnalyzer.tsx:63-165 | Without a segment or a reply nothing changes. Otherwise the trail gains the point, the history is the pruned history plus the stamped top three, and the display is the ranking of that history's totals |
| RollingAggregator.NextHistoryIsWindow | app/emotion-recognition/AudioEmotionAnalyzer.tsx:131-153 | The new history holds exactly the old and newly stamped entries that are at most 5000 ms old, it contains every new entry, and it is its own window |
| StreamingAggregator.Initial | src/components/main.tsx:28-41 | The mounted component has an empty history and display, a zero counter and both chart axes at 0. A later session starts from what `Cleanup` leaves |
| StreamingAggregator.OnData | src/components/main.tsx:94-153 | An empty chunk or a failed request changes nothing. The history only grows, by the reply's first element at most. An array reply re-ranks the window's totals, and any other reply keeps history and display. A `vad` object replaces the chart, valence first |
| StreamingAggregator.OnDataRanksWindow | src/components/main.tsx:134-146 | After an array reply the display holds `min(3, #emotions in the window)` distinct emotions, strongest first. Each shows its total over the last five seconds, and no omitted emotion has a larger total |
| StreamingAggregator.TopCount | src/components/main.tsx:142-145 | The top three of some totals has `min(3, #emotions)` entries |
| StreamingAggregator.TopScoresAreTotals | src/components/main.tsx:138-145 | Each displayed score is the total of its emotion, which occurs in the data |
| StreamingAggregator.TopBeatsRest | src/components/main.tsx:142-145 | No emotion outside the top three has a larger total than one inside it |
| StreamingAggregator.Tick | src/components/main.tsx:162-164 | The counter advances by one second and nothing else changes |
| StreamingAggregator.Cleanup | src/components/main.tsx:184-188 | Stopping empties the history and resets the counter, and keeps the display and chart |
| StreamingAggregator.VaMatchesChartHelper | src/components/main.tsx:118-122 | The chart set from a `vad` object holds the same two values as the shared chart helper, in the opposite order |
| UploadAnalyzer.ZeroRecord | src/components/AudioEmotionAnalyzer.tsx:146-154 | The initial table lists exactly the given keys, in order |
| UploadAnalyzer.ZeroRecordValues | src/components/AudioEmotionAnalyzer.tsx:146-154 | Every key of the initial table reads 0 |
| UploadAnalyzer.Fold | src/components/AudioEmotionAnalyzer.tsx:156-161 | The assignment loop never adds or removes a key |
| UploadAnalyzer.FoldKeys | src/components/AudioEmotionAnalyzer.tsx:156-161 | The assignment loop keeps the table's keys in their order |
| UploadAnalyzer.AssignGet | src/components/AudioEmotionAnalyzer.tsx:158-159 | One assignment changes the reply element's own key only, and only when the table knows that key |
| UploadAnalyzer.FoldLastWins | src/components/AudioEmotionAnalyzer.tsx:156-161 | A known key ends with the score of the last element that carries it |
| UploadAnalyzer.FoldUnmatched | src/components/AudioEmotionAnalyzer.tsx:156-161 | A known key that no element carries keeps its score |
| UploadAnalyzer.ScaledAll | src/components/AudioEmotionAnalyzer.tsx:157-159 | Each reply element is read with its label lower-cased and its score in percent |
| UploadAnalyzer.ScoreTableKeys | src/components/AudioEmotionAnalyzer.tsx:146-161 | The score table always lists the seven emotions in their declared order, whatever the reply holds |
| UploadAnalyzer.KnownKeys | src/components/AudioEmotionAnalyzer.tsx:158 | A table listing the seven emotions knows each of them |
| UploadAnalyzer.ScaledLast | src/components/AudioEmotionAnalyzer.tsx:157-159 | The last element labelled `k` in any case is the last keyed `k` after lower-casing, and its score is scaled by 100 |
| UploadAnalyzer.ScaledNone | src/components/AudioEmotionAnalyzer.tsx:157-159 | When no element is labelled `k` in any case, no lower-cased element is keyed `k` |
| UploadAnalyzer.ScaledLastWins | src/components/AudioEmotionAnalyzer.tsx:156-161 | A known key reads 100 times the score of the last element whose label, lower-cased, is that key |
| UploadAnalyzer.ScoreTableValues | src/components/AudioEmotionAnalyzer.tsx:146-161 | Each of the seven emotions scores 100 times the score of the last element labelled with it in any case, or 0 when none is; other labels are ignored |
| UploadAnalyzer.RankingLeadIsMaximal | src/components/AudioEmotionAnalyzer.tsx:172-176 | With the seven emotions the ranking has three entries, sorted. Its first is one of the emotions and scores at least as high as every entry of the table |
| UploadAnalyzer.UploadBegin | src/components/AudioEmotionAnalyzer.tsx:122-130 | Without a file nothing happens. Otherwise loading starts and one more request is out, and nothing else changes |
| UploadAnalyzer.UploadReply | src/components/AudioEmotionAnalyzer.tsx:130-183 | The reply to an outstanding request ends loading. A failed request or a non-array reply changes nothing else. An array reply installs its score table and names the table's leader, whatever file the page holds by then. With no request out nothing happens |
| UploadAnalyzer.HandleUpload | src/components/AudioEmotionAnalyzer.tsx:122-184 | With nothing happening while the request is out: without a file nothing happens. A failed request or a non-array reply only ends loading. An array reply installs its score table and names the table's leader, keeping file, URL and playback |
| UploadAnalyzer.HandleDelete | src/components/AudioEmotionAnalyzer.tsx:186-200 | Deleting forgets file, URL and emotion, stops playback, and resets the seven scores to 0 in their order |
| UploadAnalyzer.DeleteDuringUploadKeepsResult | src/components/AudioEmotionAnalyzer.tsx:122-200 | A delete while the request is out does not cancel it. The reply then shows an emotion and installs its scores on a page with no file |
| UploadAnalyzer.LegendRows | src/components/AudioEmotionAnalyzer.tsx:297-302 | The legend has `ceil(#keys / 3)` rows |
| UploadAnalyzer.LegendRowsShift | src/components/AudioEmotionAnalyzer.tsx:297-302 | Past the first three keys, the legend is a first row of three followed by the legend of the rest |
| UploadAnalyzer.LegendPartitionsKeys | src/components/AudioEmotionAnalyzer.tsx:297-302 | The rows read one after another give every key once, in order, and each row holds one to three keys |
| UploadAnalyzer.LegendOfEmojiKeys | src/components/AudioEmotionAnalyzer.tsx:25-33 | The seven emoji keys make rows of three, three and one |
| Segmenter.Request | app/hooks/useAudioRecording.ts:49-60 | Up to the microphone request: resets the counters, buffer, segments and keys, leaves the timer off, and awaits the answer. The recorder, stream and in-flight flag stay as they were |
| Segmenter.RequestCancelling | app/hooks/useAudioRecording.ts:49-60 | Corrected request (see Findings): it is the request of the source, except that the previous session's delayed callbacks are cancelled and nothing is left in flight |
| Segmenter.Answer | app/hooks/useAudioRecording.ts:60-108 | A grant to an awaited request stores the stream, starts the recorder and installs the timer, whatever happened meanwhile. A refusal only ends the request. Without an awaited request nothing happens |
| Segmenter.OnData | app/hooks/useAudioRecording.ts:71-75 | Only a chunk with data is buffered, and nothing else changes |
| Segmenter.Finalize | app/hooks/useAudioRecording.ts:131-170 | A non-empty buffer with data becomes one more segment over the given span and empties. Otherwise the segments and buffer are untouched. Either way the in-flight flag drops |
| Segmenter.CreateSegment | app/hooks/useAudioRecording.ts:112-128 | Nothing happens while a segment is in flight. A recording recorder defers the finalization by a delayed callback, and any other recorder finalizes at once |
| Segmenter.Tick | app/hooks/useAudioRecording.ts:81-128 | A running timer adds a second. A key is scheduled exactly on a third second with no segment in flight and a non-empty, unprocessed span. That key is then processed, the watermark moves to now, and the key goes to segment creation: while recording, one finalization is queued and marked in flight; otherwise the buffer is finalized at once. The key is only added to the processed keys, and the recorder, stream, interval and request stay as they were. A tick that schedules nothing only changes the counter |
| Segmenter.FireTimer | app/hooks/useAudioRecording.ts:122-198 | The oldest delayed callback runs and clears the in-flight flag. It finalizes its span: a buffer with data becomes the last segment and empties, and otherwise segments and buffer stay. The stop callback also marks the key processed and stops the recorder. No callback touches the interval, the stream, the request, the counter or the watermark |
| Segmenter.StopProcess | app/hooks/useAudioRecording.ts:173-226 | Stopping resets the counter and the timer. A final key is scheduled exactly for an active recorder with an unprocessed, non-empty span since the last cut. While recording, that key only queues the delayed callback. While paused, it is finalized at once and marked processed, and the recorder keeps its state. An active recorder with no final key is only stopped, and an inactive one only loses the timer. Nothing else changes in any branch |
| Segmenter.Stop | app/hooks/useAudioRecording.ts:25-46 | The timer always ends. The stop process runs only once a stream exists |
| Segmenter.TickKeyFresh | app/hooks/useAudioRecording.ts:93-94 | During a session the key a tick would cut is never processed or scheduled before |
| Segmenter.StopKeyFresh | app/hooks/useAudioRecording.ts:179-182 | With time left since the last cut, the final key is never processed or scheduled before |
| Segmenter.InitialInv | app/hooks/useAudioRecording.ts:10-22 | The mounted hook satisfies the segment invariant |
| Segmenter.OnDataInv | app/hooks/useAudioRecording.ts:71-75 | Buffering a chunk keeps the invariant |
| Segmenter.RequestInv | app/hooks/useAudioRecording.ts:49-60 | A request made with no delayed callback waiting keeps the invariant |
| Segmenter.RequestCancellingInv | app/hooks/useAudioRecording.ts:49-60 | The cancelling request keeps the invariant whatever callbacks were waiting |
| Segmenter.AnswerInv | app/hooks/useAudioRecording.ts:60-108 | Answering the request, by grant or refusal, keeps the invariant |
| Segmenter.FireTimerInv | app/hooks/useAudioRecording.ts:131-170 | Running a delayed callback keeps the invariant |
| Segmenter.TickInv | app/hooks/useAudioRecording.ts:81-104 | A timer tick keeps the invariant |
| Segmenter.StopProcessInv | app/hooks/useAudioRecording.ts:173-226 | Stopping keeps the invariant |
| Segmenter.StopInv | app/hooks/useAudioRecording.ts:25-46 | Turning the recording flag off keeps the invariant |
| Segmenter.StepInv | app/hooks/useAudioRecording.ts:25-226 | With either request, every event keeps the invariant. As written, this needs a request to come only when no delayed callback waits |
| Segmenter.RunKeepsInv | app/hooks/useAudioRecording.ts:25-226 | With either request, every run of events keeps the invariant, including a stop that arrives while the request is awaited. As written, the run must request only when idle |
| Segmenter.InvMeansOrderedSegments | app/hooks/useAudioRecording.ts:149-161 | Under the invariant each segment ends after it starts, segments do not overlap and come in time order, and no key is scheduled twice |
| Segmenter.RunFromInitial | app/hooks/useAudioRecording.ts:25-226 | As written, every run from the mounted hook that requests only when idle satisfies the invariant |
| Segmenter.RunFromInitialCancelling | app/hooks/useAudioRecording.ts:25-226 | Corrected request (see Findings): every run from the mounted hook satisfies the invariant, however soon a new session follows a stop |
| Segmenter.LateStopCallbackHitsNewSession | app/hooks/useAudioRecording.ts:186-198 | As written, a restart before the stop callback fires lets the callback finalize the new session's audio under the old key and mark that key processed. It also stops the new recorder while its interval runs, which breaks the invariant |
| Segmenter.CancellingKeepsNewSession | app/hooks/useAudioRecording.ts:49-60 | Corrected request (see Findings): the same events leave the new session recording, with its audio still buffered and nothing finalized into it |
| Segmenter.GrantAfterStopStillRecords | app/hooks/useAudioRecording.ts:25-104 | A stop made while the first request is awaited finds no timer and no stream, and the grant that follows still starts the recorder and the timer |
| ClipRecorder.Tick | app/archive/test.tsx:27-45 | Before a start or without a running interval nothing happens. Otherwise the shown duration is updated. Reaching a positive interval index not yet clipped remembers that index and asks for the previous interval's clip when anything was recorded. Every other tick asks for nothing and keeps the remembered index |
| ClipRecorder.StartAsWritten | app/archive/test.tsx:47-62 | As written, up to the microphone request: without media devices nothing happens. Otherwise the counters, buffers, clips and clock reset, and an interval is installed before the request, leaking one already held. Recording does not start yet |
| ClipRecorder.AnswerAsWritten | app/archive/test.tsx:62-74 | As written, the answer to an awaited request sets the recording flag on a grant. A refusal only ends the request, and the interval keeps running either way. The clock still counts from the click. Without an awaited request nothing happens |
| ClipRecorder.Start | app/archive/test.tsx:47-62 | Corrected start (see Findings): the same reset up to the microphone request, but no interval is installed and recording does not start yet |
| ClipRecorder.Answer | app/archive/test.tsx:62-74 | Corrected start (see Findings): a grant starts the clock at the grant, installs the interval and sets the recording flag, and nothing else changes. A refusal only ends the request |
| ClipRecorder.Stop | app/archive/test.tsx:78-95 | The interval in the ref is cleared, recording stops and the shown segment resets to 0. A leaked interval stays leaked, and nothing else changes |
| ClipRecorder.OnData | app/archive/test.tsx:97-108 | A chunk with data goes into both buffers and advances the counter and the shown segment. An empty chunk changes nothing |
| ClipRecorder.OnStop | app/archive/test.tsx:110-114 | The recorder stopping empties both buffers and changes nothing else |
| ClipRecorder.TickOncePerInterval | app/archive/test.tsx:33-43 | A second tick in the same interval asks for no further clip |
| ClipRecorder.IntervalMonotone | app/archive/test.tsx:33 | A later time is never in an earlier interval |
| ClipRecorder.ClipsSnoc | app/archive/test.tsx:36-42 | The clip of a later interval keeps the clips whole and in time order |
| ClipRecorder.TickKeepsClips | app/archive/test.tsx:27-45 | With the clock moving forward, the clips asked for are whole intervals, in order, with no overlap |
| ClipRecorder.StepKeepsClips | app/archive/test.tsx:27-114 | With either start, the one as written or the corrected one, every event with a forward clock keeps the clips whole, in order and without overlap. It also keeps every stored chunk non-empty in both lists. This includes the request and the answer as separate events |
| ClipRecorder.RunKeepsClips | app/archive/test.tsx:27-114 | The same holds over every run with a forward clock, for the program as written as well as the corrected one |
| ClipRecorder.StepInv | app/archive/test.tsx:27-114 | Corrected start (see Findings): every event of a run with a forward clock that starts only when stopped keeps the clips and chunks in shape. The interval runs exactly while recording, nothing leaks, and a request is awaited only while not recording |
| ClipRecorder.RunKeepsInv | app/archive/test.tsx:27-114 | Corrected start (see Findings): every such run keeps that invariant |
| ClipRecorder.DeniedStartKeepsTicking | app/archive/test.tsx:59-74 | As written, a start whose microphone request is refused leaves an interval running while not recording |
| ClipRecorder.TicksOnlyWhileRecording | app/archive/test.tsx:59-71 | With the interval installed on grant, no interval ever runs unless recording |
| ClipRecorder.SlowGrantSkipsFirstClip | app/archive/test.tsx:27-62 | As written, when the grant comes more than 5 s after the click, a tick during the prompt remembers interval 1 with nothing recorded. The next tick after the grant, whenever it comes, asks for no clip starting at 0 |
| ClipRecorder.GrantStartsFirstClip | app/archive/test.tsx:27-62 | Corrected start (see Findings): the first tick 5 s after the grant asks for the clip from 0 to 5 s of what was recorded since |
| ClipRecorder.SampleRange | app/archive/test.tsx:131-140 | The clip starts at `floor(start × rate)` and ends at `floor(end × rate)` capped by the buffer length. It is `None` exactly when that range is empty |
| ClipRecorder.CopyChannel | app/archive/test.tsx:143-150 | The copied channel holds exactly the original's samples in the range |
| ClipRecorder.CutClip | app/archive/test.tsx:117-150 | No recording or an empty range gives no clip. Otherwise each channel's clip is exactly its samples in the range |
| VaRadar.Norm | app/hooks/VARadar.tsx:108-109 | [0, 1] maps into [-1, 1] |
| VaRadar.CentreIsNeutral | app/hooks/VARadar.tsx:16-22 | The neutral point (0.5, 0.5) is drawn at the centre (150, 150) |
| VaRadar.ProjectInBox | app/hooks/VARadar.tsx:108-112 | Values in [0, 1] are drawn within the outer circle's box, pixels 30 to 270 |
| VaRadar.ProjectMonotone | app/hooks/VARadar.tsx:111-112 | More valence is drawn further right and more arousal higher up, and conversely |
| VaRadar.ProjectRoundTrip | app/hooks/VARadar.tsx:108-112 | Reading a drawn point back gives the values it came from, and drawing a read-back pixel gives that pixel |
| VaRadar.DotOf | app/hooks/VARadar.tsx:114-121 | A point becomes a circle of radius 6 at its projection. It is red and opaque exactly when it is the newest, and gray at 0.4 otherwise |
| VaRadar.Dots | app/hooks/VARadar.tsx:106-123 | One circle per trail point, in order |
| VaRadar.RadarAfterAddingPoint | app/hooks/VARadar.tsx:106-123 | After the analyzer adds a point to a trail in the unit square, the newest circle alone is red and every circle lies inside the box |

## Left out

- The network requests, `FormData`, environment variables, `console`
  logging, `MediaRecorder` internals, `AudioContext` decoding, the
  WAV/WebM conversion libraries and `src/components/transcode.tsx`. These are browser or
  foreign services. Their results appear as parameters: the parsed reply, a grant flag,
  and decoded channels.
- `parseEmotionResult`, `computeProportions` and `getTopNByPercent`, used in
  `app/emotion-recognition/AudioEmotionAnalyzer.tsx`, are not part of this model. The
  parsed reply and the ranking function are parameters of
  `RollingAggregator.ProcessLatestSegment`.
- RollingAggregator.ProcessLatestSegment: the first `setTop3Display` (lines
  107-112, rounding to one decimal) is overwritten before rendering by line 149. Only
  the final display is modelled.
- Text.Lower: only ASCII letters are lower-cased. Unicode case mapping is
  not modelled, and the service's labels are ASCII.
- Records.Put: JavaScript lists integer-like keys before other keys, and
  treats a `__proto__` key specially. Emotion labels are neither, so the
  model uses plain insertion order.
- EmotionUtils.SortByScore: the contract states a permutation in
  non-increasing order. The stability of ties, which `Array.prototype.sort`
  guarantees, is not stated.
- Numbers are mathematical reals, with no floating-point rounding. `toFixed`
  is not modelled, and a score that is `NaN` or missing is not modelled.
- A reply element without a `label` makes the source throw inside its loop.
  The model treats every element as having a label; a reply that cannot be
  used at all is the `None` reply.
- Segmenter.Answer: the answer to the microphone request may arrive after
  the recording flag has turned off again. The grant then starts the
  recorder and the timer anyway (`GrantAfterStopStillRecords`). The model keeps
  this behaviour and proves the segment invariant across it, but it does not promise that the
  hook is idle while not recording. Only one request is awaited at a time.
  A second request before the first is answered replaces it, and the source's
  second interval is not modelled.
- Segmenter.RunKeepsInv: for the program as written, proved only for runs in
  which a request comes while no delayed finalization callback is waiting. A
  stop followed by a start within 100 ms breaks the invariant, as the Findings
  show. With the cancelling request it holds for every run.
- ClipRecorder.Answer: only one microphone request is awaited at a time. A
  second start before the first answer replaces it, and the second recorder
  that two grants would create is not modelled.
- UploadAnalyzer.UploadReply: a reply is installed whatever the page holds
  by then (`DeleteDuringUploadKeepsResult`). The model keeps this and does
  not promise that an emotion is shown only with a file. A reply is not tied
  to the file it was sent for, and loading ends at the first reply even
  while another request is out, as the single flag of the source does.
- Segmenter.State: segment keys are pairs of seconds, not the strings
  `` `${start}-${end}` ``; distinct pairs give distinct strings. The
  recorder's paused state never arises in the hook. The hook's
  `startTimeRef`, `recordingDuration` mirror and `AudioContext` are not
  modelled.
- ClipRecorder.IntervalAt: the elapsed time is an exact number of
  milliseconds. The source divides a floating-point duration, which can
  differ at an interval boundary.
- ClipRecorder.Tick: the clip requested on a tick is recorded with the
  chunks it would be cut from. The asynchronous decode, the WAV encoding
  and the download link are not modelled. CutClip models the cut once
  decoding succeeds.
- `app/hooks/useAudioVisualization.ts`, the frequency bars and animation
  frame in `src/components/main.tsx`, the page and layout, the `ui`
  components and the API route stub are all presentation or scaffolding.
  Playback and file selection of the upload page are not modelled either.

## Findings

| source | as written | input that shows it | evidently intended | confidence | as-written member | corrected member |
|---|---|---|---|---|---|---|
| app/archive/test.tsx:59-62 | The 100 ms interval is installed before the microphone is requested. When the request is refused, the catch branch leaves the interval running. Recording never starts, so the stop button that would clear it stays disabled | `startRecording` with media devices present and the microphone permission refused | The interval runs only while recording, so it is installed once the microphone is granted | not executed | ClipRecorder.DeniedStartKeepsTicking | ClipRecorder.TicksOnlyWhileRecording |
| app/archive/test.tsx:55-62 | The clock starts at the click and the interval ticks while the permission prompt is open. A tick past 5 s with nothing recorded remembers interval 1 and asks for nothing. Every clip boundary is measured from the click, while the audio starts at the grant | a grant answered 5 s or more after the click | Clips are measured from when the audio starts | not executed | ClipRecorder.SlowGrantSkipsFirstClip | ClipRecorder.GrantStartsFirstClip |
| app/hooks/useAudioRecording.ts:186-198 | The 100 ms stop callback reads the recorder ref and the chunk buffer when it fires. After a restart within that time, it finalizes the new session's first audio under the old key and marks that key processed in the new session. It then stops the new recorder while the new interval keeps counting | stop, then start again and grant the microphone within 100 ms | A new session is not touched by the previous session's stop callback | not executed | Segmenter.LateStopCallbackHitsNewSession | Segmenter.RunFromInitialCancelling |

=== FILE: audio.dfy ===
/** Audio data as the recorders see it.  Browser blobs are opaque: only
    their identity and byte size matter to the logic. */
module Audio {

  /** A `Blob` delivered by `MediaRecorder` or built from chunks. */
  datatype Blob = Blob(id: int, size: nat)

  /** A clip handed to the analyzer, `{ blob, startTime, endTime }`; the
      blob of a segment is the list of chunks it was built from. */
  datatype Segment = Segment(chunks: seq<Blob>, startTime: int, endTime: int)

  /** The byte size of a blob built from `chunks` (`new Blob(chunks).size`). */
  function SizeOf(chunks: seq<Blob>): nat {
    if chunks == [] then 0 else SizeOf(chunks[..|chunks| - 1]) + chunks[|chunks| - 1].size
  }

  /** Every chunk carries data. */
  predicate AllNonEmpty(chunks: seq<Blob>) {
    forall i :: 0 <= i < |chunks| ==> chunks[i].size > 0
  }

  /** A list of non-empty chunks is empty exactly when its total size is 0. */
  lemma {:induction false} SizeOfNonEmpty(chunks: seq<Blob>)
    requires AllNonEmpty(chunks)
    ensures SizeOf(chunks) > 0 <==> chunks != []
  {
    if chunks != [] {
      assert chunks[|chunks| - 1].size > 0;
    }
  }
}

=== FILE: clip_recorder.dfy ===
/** The archived clip recorder: a 100 ms interval measures the time since
    the start and, each time a new 5-second interval is completed, asks for
    the clip of the previous interval to be cut out of everything recorded
    so far; the cut decodes the recording and copies a range of samples of
    every channel into a new buffer.

    The clock is a parameter of the timed events, the recorder's callbacks
    are events, and the decoded buffer is given as arrays of samples. */
module ClipRecorder {

  import opened Wrappers
  import opened Audio

  /** `clipDuration`, in seconds. */
  const ClipSeconds := 5
  const ClipMs := ClipSeconds * 1000

  /** A clip asked for on a tick: its bounds in seconds and the chunks it
      will be decoded from (read when it is asked for). */
  datatype Clip = Clip(start: int, end: int, source: seq<Blob>)

  /** The component's refs and state.  `timerRef` says an interval is held
      in the ref; `leaked` counts intervals still running whose handle was
      overwritten; `requesting` says a microphone request awaits its answer;
      `clips` logs the clips asked for since the last start. */
  datatype State = State(
    startMs: int,
    lastClip: int,
    chunks: seq<Blob>,
    allChunks: seq<Blob>,
    counter: int,
    shown: int,
    tenths: int,
    timerRef: bool,
    leaked: nat,
    recording: bool,
    requesting: bool,
    clips: seq<Clip>)

  function Initial(): State {
    State(0, -1, [], [], 0, 0, 0, false, 0, false, false, [])
  }

  /** Some interval is still calling the duration update. */
  predicate Ticking(s: State) {
    s.timerRef || s.leaked > 0
  }

  /** The interval index reached `elapsedMs` after the start,
      `Math.floor(duration / clipDuration)`. */
  function IntervalAt(elapsedMs: int): int {
    elapsedMs / ClipMs
  }

  /** `updateRecordingDuration` at time `now`: once started, show the
      elapsed time in tenths of a second and, on reaching an interval index
      `k > 0` not yet clipped, ask for the clip `[(k-1)*5, k*5)` (dropped
      when nothing is recorded) and remember `k`. */
  function Tick(s: State, now: int): (r: State)
    ensures s.startMs <= 0 || !Ticking(s) ==> r == s
    ensures s.startMs > 0 && Ticking(s) ==> r.tenths == (now - s.startMs) / 100
    // reaching a new interval asks for the previous one's clip, if anything
    // was recorded, and remembers the interval
    ensures var k := IntervalAt(now - s.startMs);
      s.startMs > 0 && Ticking(s) && k > 0 && k != s.lastClip ==>
        && r.lastClip == k
        && r.clips == if s.allChunks == [] then s.clips
                      else s.clips + [Clip((k - 1) * ClipSeconds, k * ClipSeconds, s.allChunks)]
    // any other tick asks for nothing
    ensures var k := IntervalAt(now - s.startMs);
      !(s.startMs > 0 && Ticking(s) && k > 0 && k != s.lastClip) ==>
        r.clips == s.clips && r.lastClip == s.lastClip
    ensures r.(tenths := s.tenths, lastClip := s.lastClip, clips := s.clips) == s
  {
    if s.startMs <= 0 || !Ticking(s) then s
    else
      var shown := s.(tenths := (now - s.startMs) / 100);
      var k := IntervalAt(now - s.startMs);
      if k > 0 && k != s.lastClip then
        var asked := if s.allChunks == [] then shown
                     else shown.(clips := s.clips + [Clip((k - 1) * ClipSeconds, k * ClipSeconds, s.allChunks)]);
        asked.(lastClip := k)
      else shown
  }

  /** The reset `startRecording` does before asking for the microphone. */
  function Reset(s: State, now: int): State {
    s.(counter := 0, shown := 0, chunks := [], allChunks := [], startMs := now,
       lastClip := -1, tenths := 0, clips := [])
  }

  /** `startRecording` as written, up to its `await`: without media
      devices nothing happens; otherwise reset, install the interval, and
      only then ask for the microphone.  An interval already in the ref is
      overwritten and keeps running. */
  function StartAsWritten(s: State, now: int, hasDevices: bool): (r: State)
    ensures !hasDevices ==> r == s
    ensures hasDevices ==> r.startMs == now && r.lastClip == -1 && r.counter == 0 && r.shown == 0
    ensures hasDevices ==> r.tenths == 0 && r.chunks == [] && r.allChunks == [] && r.clips == []
    ensures hasDevices ==> r.timerRef && r.requesting
    ensures hasDevices ==> r.leaked == s.leaked + (if s.timerRef then 1 else 0)
    ensures hasDevices ==> r.recording == s.recording
  {
    if !hasDevices then s
    else Reset(s, now).(timerRef := true, leaked := s.leaked + (if s.timerRef then 1 else 0),
                        requesting := true)
  }

  /** `startRecording` as written, after its `await`: a grant starts the
      recorder and sets the recording flag; a refusal lands in the catch
      branch, leaving the interval running.  The clock still counts from
      the click. */
  function AnswerAsWritten(s: State, granted: bool): (r: State)
    ensures !s.requesting ==> r == s
    ensures s.requesting ==> !r.requesting && r.recording == (s.recording || granted)
    ensures r.(requesting := s.requesting, recording := s.recording) == s
  {
    if !s.requesting then s
    else if granted then s.(requesting := false, recording := true)
    else s.(requesting := false)
  }

  /** `startRecording` with the interval installed once the microphone is
      granted, up to its `await`: the same reset, no interval yet.  The rest
      of the model uses this start and `Answer`. */
  function Start(s: State, now: int, hasDevices: bool): (r: State)
    ensures !hasDevices ==> r == s
    ensures hasDevices ==> r.startMs == now && r.lastClip == -1 && r.counter == 0 && r.shown == 0
    ensures hasDevices ==> r.tenths == 0 && r.chunks == [] && r.allChunks == [] && r.clips == []
    ensures hasDevices ==> r.requesting
    ensures hasDevices ==> r.timerRef == s.timerRef && r.leaked == s.leaked && r.recording == s.recording
  {
    if !hasDevices then s
    else Reset(s, now).(requesting := true)
  }

  /** The corrected answer at time `now`: a grant starts the clock, the
      interval and the recording flag, so clips are measured from when the
      audio starts; a refusal changes nothing else. */
  function Answer(s: State, now: int, granted: bool): (r: State)
    ensures !s.requesting ==> r == s
    ensures s.requesting && !granted ==> r == s.(requesting := false)
    ensures s.requesting && granted ==>
      && r.timerRef && r.recording && !r.requesting
      && r.startMs == now && r.lastClip == -1 && r.tenths == 0 && r.clips == []
      && r.leaked == s.leaked + (if s.timerRef then 1 else 0)
    ensures s.requesting && granted ==>
      r.(timerRef := s.timerRef, recording := s.recording, requesting := s.requesting,
         startMs := s.startMs, lastClip := s.lastClip, tenths := s.tenths, clips := s.clips,
         leaked := s.leaked) == s
  {
    if !s.requesting then s
    else if granted then
      s.(requesting := false, timerRef := true, recording := true,
         leaked := s.leaked + (if s.timerRef then 1 else 0),
         startMs := now, lastClip := -1, tenths := 0, clips := [])
    else s.(requesting := false)
  }

  /** `stopRecording`: clear the interval held in the ref (a leaked one
      keeps running), reset the shown segment and leave recording.  The
      recorder's own stop arrives later as `OnStop`. */
  function Stop(s: State): (r: State)
    ensures !r.timerRef && !r.recording && r.shown == 0 && r.leaked == s.leaked
    ensures r.(timerRef := s.timerRef, recording := s.recording, shown := s.shown) == s
  {
    s.(timerRef := false, shown := 0, recording := false)
  }

  /** `handleDataAvailable`: a chunk with data goes into both lists and
      counts once; an empty one is ignored. */
  function OnData(s: State, b: Blob): (r: State)
    ensures b.size == 0 ==> r == s
    ensures b.size > 0 ==>
      && r.chunks == s.chunks + [b] && r.allChunks == s.allChunks + [b]
      && r.counter == s.counter + 1 && r.shown == r.counter
    ensures r.(chunks := s.chunks, allChunks := s.allChunks, counter := s.counter, shown := s.shown) == s
  {
    if b.size > 0 then
      s.(chunks := s.chunks + [b], allChunks := s.allChunks + [b],
         counter := s.counter + 1, shown := s.counter + 1)
    else s
  }

  /** `handleStop`: both chunk lists are emptied. */
  function OnStop(s: State): (r: State)
    ensures r.chunks == [] && r.allChunks == []
    ensures r.(chunks := s.chunks, allChunks := s.allChunks) == s
  {
    s.(chunks := [], allChunks := [])
  }

  // ---------------------------------------------------------------------
  // Ticks within one interval, and clips over a run.
  // ---------------------------------------------------------------------

  /** A second tick in the interval of the first asks for nothing new. */
  lemma TickOncePerInterval(s: State, t1: int, t2: int)
    requires IntervalAt(t1 - s.startMs) == IntervalAt(t2 - s.startMs)
    ensures Tick(Tick(s, t1), t2).clips == Tick(s, t1).clips
    ensures Tick(Tick(s, t1), t2).lastClip == Tick(s, t1).lastClip
  {
  }

  /** Each clip is one whole interval starting at or after 0 and ending
      by the end of interval `last`. */
  predicate WholeIntervals(clips: seq<Clip>, last: int) {
    forall i :: 0 <= i < |clips| ==>
      && clips[i].end == clips[i].start + ClipSeconds
      && clips[i].start % ClipSeconds == 0
      && 0 <= clips[i].start
      && clips[i].end <= last * ClipSeconds
  }

  /** Clips in time order without overlap. */
  predicate InOrder(clips: seq<Clip>) {
    forall i, j :: 0 <= i < j < |clips| ==> clips[i].end <= clips[j].start
  }

  /** Clips of the session so far, as of time `t`: each is one whole
      interval, they come in time order without overlap, and none reaches
      past the last interval clipped, which was reached by `t`. */
  predicate ClipsOk(s: State, t: int) {
    && (s.lastClip == -1 || (s.lastClip >= 1 && s.startMs > 0 &&
                             s.lastClip <= IntervalAt(t - s.startMs)))
    && (s.lastClip == -1 ==> s.clips == [])
    && WholeIntervals(s.clips, s.lastClip)
    && InOrder(s.clips)
  }

  /** Every stored chunk has data and both lists hold the same chunks. */
  predicate ChunksOk(s: State) {
    AllNonEmpty(s.allChunks) && s.chunks == s.allChunks
  }

  /** A later time is never in an earlier interval. */
  lemma IntervalMonotone(a: int, b: int)
    requires a <= b
    ensures IntervalAt(a) <= IntervalAt(b)
  {
  }

  /** The clip of a later interval extends the clips in order. */
  lemma ClipsSnoc(clips: seq<Clip>, last: int, k: int, source: seq<Blob>)
    requires WholeIntervals(clips, last) && InOrder(clips) && last < k && 1 <= k
    ensures WholeIntervals(clips + [Clip((k - 1) * ClipSeconds, k * ClipSeconds, source)], k)
    ensures InOrder(clips + [Clip((k - 1) * ClipSeconds, k * ClipSeconds, source)])
  {
    var c := Clip((k - 1) * ClipSeconds, k * ClipSeconds, source);
    var cs := clips + [c];
    forall i | 0 <= i < |clips| ensures cs[i].end <= c.start {
      assert cs[i] == clips[i];
    }
  }

  /** With the clock moving forward, a tick keeps the clips in order. */
  lemma TickKeepsClips(s: State, t: int, now: int)
    requires ClipsOk(s, t) && t <= now
    ensures ClipsOk(Tick(s, now), now)
  {
    var r := Tick(s, now);
    var k := IntervalAt(now - s.startMs);
    IntervalMonotone(t - s.startMs, now - s.startMs);
    if r.clips != s.clips {
      ClipsSnoc(s.clips, s.lastClip, k, s.allChunks);
    } else if r.lastClip != s.lastClip {
      assert WholeIntervals(s.clips, r.lastClip);
    }
  }

  /** The events of the component; timed ones carry `Date.now()`. */
  datatype Event =
    | StartEv(now: int, hasDevices: bool)
    | AnswerEv(now: int, granted: bool)
    | TickEv(now: int)
    | DataEv(b: Blob)
    | StopEv
    | OnStopEv

  /** Which `startRecording` a run uses: the one as written, or the
      corrected one that installs the interval and starts the clock on
      grant. */
  datatype Program = AsWritten | Corrected

  function StartBy(p: Program, s: State, now: int, hasDevices: bool): State {
    match p
    case AsWritten => StartAsWritten(s, now, hasDevices)
    case Corrected => Start(s, now, hasDevices)
  }

  function AnswerBy(p: Program, s: State, now: int, granted: bool): State {
    match p
    case AsWritten => AnswerAsWritten(s, granted)
    case Corrected => Answer(s, now, granted)
  }

  function Step(p: Program, s: State, e: Event): State {
    match e
    case StartEv(now, hasDevices) => StartBy(p, s, now, hasDevices)
    case AnswerEv(now, granted) => AnswerBy(p, s, now, granted)
    case TickEv(now) => Tick(s, now)
    case DataEv(b) => OnData(s, b)
    case StopEv => Stop(s)
    case OnStopEv => OnStop(s)
  }

  /** The clock after an event. */
  function ClockAfter(t: int, e: Event): int {
    match e
    case StartEv(now, _) => now
    case AnswerEv(now, _) => now
    case TickEv(now) => now
    case _ => t
  }

  function Run(p: Program, s: State, es: seq<Event>): State
    decreases |es|
  {
    if es == [] then s else Run(p, Step(p, s, es[0]), es[1..])
  }

  function Clock(t: int, es: seq<Event>): int
    decreases |es|
  {
    if es == [] then t else Clock(ClockAfter(t, es[0]), es[1..])
  }

  /** The clock never goes back, and a start comes only when the start
      button is enabled (not recording). */
  predicate Wellformed(p: Program, s: State, t: int, es: seq<Event>)
    decreases |es|
  {
    es == [] ||
    (&& (es[0].StartEv? || es[0].AnswerEv? || es[0].TickEv? ==> t <= es[0].now)
     && (es[0].StartEv? ==> !s.recording)
     && Wellformed(p, Step(p, s, es[0]), ClockAfter(t, es[0]), es[1..]))
  }

  /** The interval runs exactly while recording, none leaks, and a
      microphone request is awaited only while not recording. */
  predicate TimerOk(s: State) {
    s.leaked == 0 && s.timerRef == s.recording && (s.requesting ==> !s.recording)
  }

  ghost predicate Inv(s: State, t: int) {
    ClipsOk(s, t) && ChunksOk(s) && TimerOk(s)
  }

  /** Whichever start is used, an event with a forward clock keeps the
      clips and the chunk lists in shape. */
  lemma StepKeepsClips(p: Program, s: State, t: int, e: Event)
    requires ClipsOk(s, t) && ChunksOk(s)
    requires e.StartEv? || e.AnswerEv? || e.TickEv? ==> t <= e.now
    ensures ClipsOk(Step(p, s, e), ClockAfter(t, e)) && ChunksOk(Step(p, s, e))
  {
    match e
    case TickEv(now) =>
      TickKeepsClips(s, t, now);
    case StartEv(now, hasDevices) =>
      IntervalMonotone(t - s.startMs, now - s.startMs);
    case AnswerEv(now, granted) =>
      IntervalMonotone(t - s.startMs, now - s.startMs);
    case DataEv(b) =>
    case StopEv =>
    case OnStopEv =>
  }

  /** Over any run with a forward clock, the program as written included:
      the clips asked for are whole intervals, in time order, without
      overlap, and every stored chunk has data. */
  lemma {:induction false} RunKeepsClips(p: Program, s: State, t: int, es: seq<Event>)
    requires ClipsOk(s, t) && ChunksOk(s) && Wellformed(p, s, t, es)
    ensures ClipsOk(Run(p, s, es), Clock(t, es)) && ChunksOk(Run(p, s, es))
    decreases |es|
  {
    if es != [] {
      StepKeepsClips(p, s, t, es[0]);
      RunKeepsClips(p, Step(p, s, es[0]), ClockAfter(t, es[0]), es[1..]);
    }
  }

  /** With the corrected start, every event of a well-formed run also
      keeps the interval running exactly while recording. */
  lemma StepInv(s: State, t: int, e: Event)
    requires Inv(s, t)
    requires e.StartEv? || e.AnswerEv? || e.TickEv? ==> t <= e.now
    requires e.StartEv? ==> !s.recording
    ensures Inv(Step(Corrected, s, e), ClockAfter(t, e))
  {
    StepKeepsClips(Corrected, s, t, e);
  }

  /** Over any run of the corrected program with a forward clock that
      starts only from the stopped state: the clips and chunks are in
      shape, and an interval is running exactly while recording. */
  lemma {:induction false} RunKeepsInv(s: State, t: int, es: seq<Event>)
    requires Inv(s, t) && Wellformed(Corrected, s, t, es)
    ensures Inv(Run(Corrected, s, es), Clock(t, es))
    decreases |es|
  {
    if es != [] {
      StepInv(s, t, es[0]);
      RunKeepsInv(Step(Corrected, s, es[0]), ClockAfter(t, es[0]), es[1..]);
    }
  }

  /** As written, a refused microphone request leaves an interval
      running while not recording, and the stop button that would clear
      it stays disabled. */
  lemma DeniedStartKeepsTicking()
    ensures var s := AnswerAsWritten(StartAsWritten(Initial(), 1000, true), false);
      Ticking(s) && !s.recording && !s.requesting
  {
  }

  /** As written, a grant that comes more than 5 s after the click: the
      interval ticked during the prompt with nothing recorded, so interval
      1 is remembered, and the next tick after the grant, whenever it
      comes, asks for no clip starting at 0. */
  lemma SlowGrantSkipsFirstClip(b: Blob, now: int)
    requires b.size > 0
    ensures var s := OnData(AnswerAsWritten(Tick(StartAsWritten(Initial(), 1000, true), 6000), true), b);
      && s.recording && s.lastClip == 1 && s.clips == []
      && forall c :: c in Tick(s, now).clips ==> c.start > 0
  {
  }

  /** With the corrected answer, clips are measured from the grant: the
      first tick 5 s after it asks for the clip `[0, 5)` of what was
      recorded since. */
  lemma GrantStartsFirstClip(s: State, g: int, b: Blob, now: int)
    requires s.requesting && g > 0 && b.size > 0
    requires g + ClipMs <= now < g + 2 * ClipMs
    ensures Tick(OnData(Answer(s, g, true), b), now).clips == [Clip(0, ClipSeconds, s.allChunks + [b])]
  {
  }

  /** With the interval installed on grant, no interval runs unless
      recording, over every well-formed run from the mounted component. */
  lemma TicksOnlyWhileRecording(es: seq<Event>)
    requires Wellformed(Corrected, Initial(), 0, es)
    ensures Ticking(Run(Corrected, Initial(), es)) ==> Run(Corrected, Initial(), es).recording
  {
    RunKeepsInv(Initial(), 0, es);
  }

  // ---------------------------------------------------------------------
  // Cutting the clip out of the decoded buffer.
  // ---------------------------------------------------------------------

  /** The sample range of `[startTime, endTime)` at `rate` samples per
      second, cut to the buffer's `length`; `None` when the clip would be
      empty, where creating the clip buffer throws and the cut is given up. */
  function SampleRange(startTime: int, endTime: int, rate: real, length: nat): (range: Option<(nat, nat)>)
    requires rate > 0.0 && startTime >= 0
    ensures range.Some? ==>
      && range.value.0 == (startTime as real * rate).Floor
      && range.value.0 < range.value.1 <= length
      && (range.value.1 == length || range.value.1 == (endTime as real * rate).Floor)
      && range.value.1 <= (endTime as real * rate).Floor
    ensures range.None? <==>
      (var e := (endTime as real * rate).Floor;
       (if e < length then e else length) <= (startTime as real * rate).Floor)
  {
    var startSample := (startTime as real * rate).Floor;
    var endSample := if (endTime as real * rate).Floor < length then (endTime as real * rate).Floor else length;
    if endSample - startSample < 1 then None else Some((startSample, endSample))
  }

  /** The inner copy loop: a new channel holding `original[lo..hi]`. */
  method CopyChannel(original: array<real>, lo: nat, hi: nat) returns (clip: array<real>)
    requires lo < hi <= original.Length
    ensures clip.Length == hi - lo
    ensures clip[..] == original[lo..hi]
  {
    clip := new real[hi - lo];
    var i := 0;
    while i < clip.Length
      invariant 0 <= i <= clip.Length
      invariant forall j :: 0 <= j < i ==> clip[j] == original[j + lo]
    {
      clip[i] := original[i + lo];
      i := i + 1;
    }
  }

  /** The cut of `createAndDownloadClip`, after decoding: nothing when the
      recording is empty or the range is empty; otherwise every channel's
      samples in the range, channel by channel. */
  method CutClip(source: seq<Blob>, channels: seq<array<real>>, length: nat, rate: real,
                 startTime: int, endTime: int)
    returns (clip: Option<seq<seq<real>>>)
    requires rate > 0.0 && startTime >= 0
    requires forall c :: 0 <= c < |channels| ==> channels[c].Length == length
    ensures source == [] ==> clip.None?
    ensures source != [] ==> (clip.None? <==> SampleRange(startTime, endTime, rate, length).None?)
    ensures clip.Some? ==>
      var (lo, hi) := SampleRange(startTime, endTime, rate, length).value;
      && |clip.value| == |channels|
      && forall c :: 0 <= c < |channels| ==> clip.value[c] == channels[c][lo..hi]
  {
    if source == [] {
      return None;
    }
    var range := SampleRange(startTime, endTime, rate, length);
    if range.None? {
      return None;
    }
    var (lo, hi) := range.value;
    var out: seq<seq<real>> := [];
    var c := 0;
    while c < |channels|
      invariant 0 <= c <= |channels| && |out| == c
      invariant forall d :: 0 <= d < c ==> out[d] == channels[d][lo..hi]
    {
      var copy := CopyChannel(channels[c], lo, hi);
      out := out + [copy[..]];
      c := c + 1;
    }
    return Some(out);
  }
}

=== FILE: emotion_utils.dfy ===
/** The shared helpers of the live analyzer: reading a valence/arousal
    pair out of an inference reply, summing scores per emotion, and
    ranking the strongest emotions. */
module EmotionUtils {

  import opened Wrappers
  import opened Records

  /** The optional `vad` object of a reply; each component may be missing. */
  datatype Vad = Vad(valence: Option<real>, arousal: Option<real>)

  /** A parsed JSON reply of the inference service.  `vad` is the value
      of its `vad` property (absent for most replies); `items` is `Some`
      exactly when the reply is an array (`Array.isArray`), holding its
      `{ label, score }` elements. */
  datatype Response = Response(vad: Option<Vad>, items: Option<seq<Entry>>)

  datatype Axis = Arousal | Valence

  /** One point of the radar chart, `{ axis, value }`. */
  datatype AxisValue = AxisValue(axis: Axis, value: real)

  // ---------------------------------------------------------------------
  // formatVADForChart
  // ---------------------------------------------------------------------

  /** The arousal and valence a reply carries, for a chart that lists
      arousal first.  A `vad` object wins over the array shape, in which
      positions 8 and 9 are read as arousal and valence; anything
      missing reads as 0. */
  function FormatVadForChart(res: Response): (chart: seq<AxisValue>)
    ensures |chart| == 2 && chart[0].axis == Arousal && chart[1].axis == Valence
    ensures res.vad.Some? ==>
      chart[0].value == res.vad.value.arousal.GetOr(0.0) &&
      chart[1].value == res.vad.value.valence.GetOr(0.0)
    ensures res.vad.None? && res.items.Some? && |res.items.value| > 8 ==>
      chart[0].value == res.items.value[8].score &&
      chart[1].value == (if |res.items.value| > 9 then res.items.value[9].score else 0.0)
    ensures res.vad.None? && (res.items.None? || |res.items.value| <= 8) ==>
      chart[0].value == 0.0 && chart[1].value == 0.0
  {
    var (arousal, valence) :=
      if res.vad.Some? then
        (res.vad.value.arousal.GetOr(0.0), res.vad.value.valence.GetOr(0.0))
      else if res.items.Some? && |res.items.value| > 8 then
        var items := res.items.value;
        (items[8].score, if |items| > 9 then items[9].score else 0.0)
      else
        (0.0, 0.0);
    [AxisValue(Arousal, arousal), AxisValue(Valence, valence)]
  }

  // ---------------------------------------------------------------------
  // aggregateEmotionScores
  // ---------------------------------------------------------------------

  /** Reference definition: the total score of the entries for `emotion`. */
  function SumOf(data: seq<Entry>, emotion: string): real {
    if data == [] then 0.0
    else SumOf(data[..|data| - 1], emotion)
         + (if data[|data| - 1].emotion == emotion then data[|data| - 1].score else 0.0)
  }

  /** `aggregateEmotionScores`: walks the entries in order, adding each
      score to its emotion's running total (a new emotion starts at 0).
      The result has one key per emotion of the input, holding that
      emotion's total. */
  function Aggregate(data: seq<Entry>): (totals: Record)
    ensures Distinct(totals)
    ensures KeySet(totals) == KeySet(data)
    ensures forall e :: GetOrZero(totals, e) == SumOf(data, e)
    decreases |data|
  {
    if data == [] then []
    else
      var prefix := data[..|data| - 1];
      var d := data[|data| - 1];
      var acc := Aggregate(prefix);
      var total := GetOrZero(acc, d.emotion) + d.score;
      PutDistinct(acc, d.emotion, total);
      KeySetAppend(prefix, [d]);
      AggregateStepTotals(prefix, d, acc);
      assert data == prefix + [d];
      Put(acc, d.emotion, total)
  }

  /** One step of the running totals: adding entry `d` to totals that are
      right for `prefix` gives totals that are right for `prefix + [d]`. */
  lemma AggregateStepTotals(prefix: seq<Entry>, d: Entry, acc: Record)
    requires forall e :: GetOrZero(acc, e) == SumOf(prefix, e)
    ensures forall e :: GetOrZero(Put(acc, d.emotion, GetOrZero(acc, d.emotion) + d.score), e)
                        == SumOf(prefix + [d], e)
  {
    var data := prefix + [d];
    var totals := Put(acc, d.emotion, GetOrZero(acc, d.emotion) + d.score);
    assert data[..|data| - 1] == prefix;
    forall e ensures GetOrZero(totals, e) == SumOf(data, e) {
      assert SumOf(data, e) == SumOf(prefix, e) + (if d.emotion == e then d.score else 0.0);
    }
  }

  /** The totals are empty exactly when the input is. */
  lemma AggregateEmpty(data: seq<Entry>)
    ensures Aggregate(data) == [] <==> data == []
  {
    if data != [] {
      KeySetMembers(data);
      assert data[0].emotion in KeySet(Aggregate(data));
    }
  }

  /** Totals of a concatenation add up. */
  lemma {:induction false} SumOfAppend(a: seq<Entry>, b: seq<Entry>, emotion: string)
    ensures SumOf(a + b, emotion) == SumOf(a, emotion) + SumOf(b, emotion)
    decreases |b|
  {
    if b == [] {
      assert a + b == a;
    } else {
      var b' := b[..|b| - 1];
      SumOfAppend(a, b', emotion);
      assert (a + b)[..|a + b| - 1] == a + b';
    }
  }

  /** Aggregating `a ++ b` is the key-wise sum of aggregating each half. */
  lemma {:induction false} AggregateAppend(a: seq<Entry>, b: seq<Entry>)
    ensures KeySet(Aggregate(a + b)) == KeySet(Aggregate(a)) + KeySet(Aggregate(b))
    ensures forall e :: GetOrZero(Aggregate(a + b), e)
                        == GetOrZero(Aggregate(a), e) + GetOrZero(Aggregate(b), e)
  {
    KeySetAppend(a, b);
    forall e ensures SumOf(a + b, e) == SumOf(a, e) + SumOf(b, e) {
      SumOfAppend(a, b, e);
    }
  }

  // ---------------------------------------------------------------------
  // getTopEmotions
  // ---------------------------------------------------------------------

  /** Non-increasing in score, stated pairwise. */
  predicate SortedDesc(s: seq<Entry>) {
    forall i, j :: 0 <= i < j < |s| ==> s[i].score >= s[j].score
  }

  /** Non-increasing in score, stated on neighbours. */
  predicate Descending(s: seq<Entry>) {
    |s| <= 1 || (s[0].score >= s[1].score && Descending(s[1..]))
  }

  /** The neighbour form implies the pairwise form. */
  lemma {:induction false} DescendingIsSorted(s: seq<Entry>)
    requires Descending(s)
    ensures SortedDesc(s)
  {
    if |s| > 1 {
      DescendingIsSorted(s[1..]);
      forall i, j | 0 <= i < j < |s| ensures s[i].score >= s[j].score {
        if i > 0 {
          assert s[i] == s[1..][i - 1] && s[j] == s[1..][j - 1];
        } else if j > 1 {
          assert s[1] == s[1..][0] && s[j] == s[1..][j - 1];
        }
      }
    }
  }

  /** Places `e` before the first entry whose score it is at least; an
      entry inserted this way precedes the later entries it ties with. */
  function Insert(e: Entry, s: seq<Entry>): (r: seq<Entry>)
    requires Descending(s)
    ensures |r| == |s| + 1
    ensures r[0] == e || (s != [] && r[0] == s[0])
    ensures Descending(r)
    ensures multiset(r) == multiset(s) + multiset{e}
  {
    if s == [] || e.score >= s[0].score then [e] + s
    else
      assert s == [s[0]] + s[1..];
      [s[0]] + Insert(e, s[1..])
  }

  /** Insertion adds exactly the key of the inserted entry. */
  lemma {:induction false} InsertKeys(e: Entry, s: seq<Entry>)
    requires Descending(s)
    ensures KeySet(Insert(e, s)) == KeySet(s) + {e.emotion}
  {
    var r := Insert(e, s);
    if s == [] || e.score >= s[0].score {
      assert r[1..] == s;
    } else {
      InsertKeys(e, s[1..]);
      assert r[1..] == Insert(e, s[1..]);
    }
  }

  /** Inserting a new key into a record with distinct keys keeps them distinct. */
  lemma {:induction false} InsertDistinct(e: Entry, s: seq<Entry>)
    requires Descending(s) && Distinct(s) && e.emotion !in KeySet(s)
    ensures Distinct(Insert(e, s))
  {
    var r := Insert(e, s);
    if s == [] || e.score >= s[0].score {
      assert r[1..] == s;
      DistinctCons(r);
    } else {
      DistinctCons(s);
      InsertKeys(e, s[1..]);
      InsertDistinct(e, s[1..]);
      assert r[1..] == Insert(e, s[1..]);
      DistinctCons(r);
    }
  }

  /** `Array.prototype.sort((a, b) => b[1] - a[1])`: a stable insertion
      sort by descending score. */
  function SortByScore(s: seq<Entry>): (r: seq<Entry>)
    ensures |r| == |s|
    ensures Descending(r)
    ensures multiset(r) == multiset(s)
  {
    if s == [] then []
    else
      assert s == [s[0]] + s[1..];
      Insert(s[0], SortByScore(s[1..]))
  }

  /** Sorting keeps the keys. */
  lemma {:induction false} SortKeySet(s: seq<Entry>)
    ensures KeySet(SortByScore(s)) == KeySet(s)
  {
    if s != [] {
      SortKeySet(s[1..]);
      InsertKeys(s[0], SortByScore(s[1..]));
      assert KeySet(s) == {s[0].emotion} + KeySet(s[1..]);
    }
  }

  /** Sorting keeps keys distinct. */
  lemma {:induction false} SortDistinct(s: seq<Entry>)
    requires Distinct(s)
    ensures Distinct(SortByScore(s))
  {
    if s != [] {
      DistinctCons(s);
      SortDistinct(s[1..]);
      SortKeySet(s[1..]);
      InsertDistinct(s[0], SortByScore(s[1..]));
    }
  }

  /** The end index `slice(0, n)` stops at: a negative `n` counts from the end. */
  function SliceEnd(len: nat, n: int): (k: nat)
    ensures k <= len
    ensures n >= 0 ==> k == if n < len then n else len
  {
    if n >= 0 then (if n < len then n else len)
    else if len + n > 0 then len + n else 0
  }

  /** `getTopEmotions(scores, topCount = 3)`: the entries of `scores` in
      descending order of score, cut to the first `topCount`. */
  function GetTopEmotions(scores: Record, topCount: int := 3): (top: seq<Entry>)
    ensures topCount >= 0 ==> |top| == if topCount < |scores| then topCount else |scores|
    ensures SortedDesc(top)
    ensures forall e :: e in top ==> e in scores
    ensures Distinct(scores) ==> Distinct(top)
    ensures forall i, e :: 0 <= i < |top| && e in scores && e !in top ==> e.score <= top[i].score
  {
    var sorted := SortByScore(scores);
    var n := SliceEnd(|scores|, topCount);
    var top := sorted[..n];
    DescendingIsSorted(sorted);
    PrefixSorted(sorted, n);
    PrefixOfSortedIsDrawn(scores, n);
    PrefixOfSortedIsTop(scores, n);
    if Distinct(scores) then
      SortDistinct(scores);
      PrefixDistinct(sorted, n);
      top
    else
      top
  }

  /** The first of the top entries scores at least as much as any entry. */
  lemma TopLeadIsMaximal(scores: Record, topCount: int)
    requires topCount > 0 && scores != []
    ensures GetTopEmotions(scores, topCount) != []
    ensures GetTopEmotions(scores, topCount)[0] in scores
    ensures forall e :: e in scores ==> e.score <= GetTopEmotions(scores, topCount)[0].score
  {
    var top := GetTopEmotions(scores, topCount);
    forall e | e in scores ensures e.score <= top[0].score {
      if e in top {
        var j :| 0 <= j < |top| && top[j] == e;
      }
    }
  }

  /** A prefix of the sorted entries is drawn from the input. */
  lemma PrefixOfSortedIsDrawn(scores: Record, n: nat)
    requires n <= |scores|
    ensures forall e :: e in SortByScore(scores)[..n] ==> e in scores
  {
    var sorted := SortByScore(scores);
    forall e | e in sorted[..n] ensures e in scores {
      assert e in multiset(sorted);
    }
  }

  /** A prefix of the sorted entries beats every input entry it leaves out. */
  lemma PrefixOfSortedIsTop(scores: Record, n: nat)
    requires n <= |scores|
    ensures forall i, e :: 0 <= i < n && e in scores && e !in SortByScore(scores)[..n] ==>
                           e.score <= SortByScore(scores)[i].score
  {
    var sorted := SortByScore(scores);
    var top := sorted[..n];
    DescendingIsSorted(sorted);
    forall i, e | 0 <= i < n && e in scores && e !in top
      ensures e.score <= sorted[i].score
    {
      assert e in multiset(sorted);
      var j :| 0 <= j < |sorted| && sorted[j] == e;
    }
  }

  /** A prefix of a sorted sequence is sorted. */
  lemma PrefixSorted(s: seq<Entry>, n: nat)
    requires n <= |s| && SortedDesc(s)
    ensures SortedDesc(s[..n])
  {
  }

  /** A prefix of a record with distinct keys has distinct keys. */
  lemma PrefixDistinct(s: seq<Entry>, n: nat)
    requires n <= |s| && Distinct(s)
    ensures Distinct(s[..n])
  {
  }
}

=== FILE: records.dfy ===
/** JavaScript plain objects used as `Record<string, number>`.  Such an
    object remembers the order in which its keys were first assigned
    (`Object.entries` lists them in that order), and assigning to an
    existing key keeps its position.  A record is therefore modelled as a
    sequence of emotion/score entries with distinct emotions. */
module Records {

  import opened Wrappers

  /** One `{ label, score }` pair; also one `[key, value]` of `Object.entries`. */
  datatype Entry = Entry(emotion: string, score: real)

  type Record = seq<Entry>

  /** No key occurs twice. */
  predicate Distinct(r: Record) {
    forall i, j :: 0 <= i < j < |r| ==> r[i].emotion != r[j].emotion
  }

  /** The keys, in order (`Object.keys`). */
  function Keys(r: Record): (ks: seq<string>)
    ensures |ks| == |r|
    ensures forall i :: 0 <= i < |r| ==> ks[i] == r[i].emotion
  {
    if r == [] then [] else [r[0].emotion] + Keys(r[1..])
  }

  /** The set of keys. */
  function KeySet(r: Record): set<string> {
    if r == [] then {} else {r[0].emotion} + KeySet(r[1..])
  }

  /** A key is in the key set exactly when some entry carries it. */
  lemma {:induction false} KeySetMembers(r: Record)
    ensures forall i :: 0 <= i < |r| ==> r[i].emotion in KeySet(r)
    ensures forall k :: k in KeySet(r) ==> exists i :: 0 <= i < |r| && r[i].emotion == k
  {
    if r != [] {
      KeySetMembers(r[1..]);
      forall i | 0 <= i < |r| ensures r[i].emotion in KeySet(r) {
        if i > 0 { assert r[i] == r[1..][i - 1]; }
      }
      forall k | k in KeySet(r) ensures exists i :: 0 <= i < |r| && r[i].emotion == k {
        if k != r[0].emotion {
          var j :| 0 <= j < |r[1..]| && r[1..][j].emotion == k;
          assert r[j + 1].emotion == k;
        }
      }
    }
  }

  /** Distinctness, one key at a time from the front. */
  lemma DistinctCons(r: Record)
    requires r != []
    ensures Distinct(r) <==> r[0].emotion !in KeySet(r[1..]) && Distinct(r[1..])
  {
    KeySetMembers(r[1..]);
    if r[0].emotion !in KeySet(r[1..]) && Distinct(r[1..]) {
      forall i, j | 0 <= i < j < |r| ensures r[i].emotion != r[j].emotion {
        if i == 0 {
          assert r[j] == r[1..][j - 1];
        } else {
          assert r[i] == r[1..][i - 1] && r[j] == r[1..][j - 1];
        }
      }
    }
    if Distinct(r) {
      forall k | k in KeySet(r[1..]) ensures k != r[0].emotion {
        var i :| 0 <= i < |r[1..]| && r[1..][i].emotion == k;
        assert r[i + 1] == r[1..][i];
      }
    }
  }

  /** `obj[key]`, `None` standing for `undefined`. */
  function Get(r: Record, key: string): (v: Option<real>)
    ensures v.Some? <==> key in KeySet(r)
  {
    if r == [] then None
    else if r[0].emotion == key then Some(r[0].score)
    else Get(r[1..], key)
  }

  /** `obj[key] || 0` for a numeric field. */
  function GetOrZero(r: Record, key: string): real {
    Get(r, key).GetOr(0.0)
  }

  /** `obj[key] = v`: overwrite in place when the key exists, otherwise
      add it as the last key. */
  function Put(r: Record, key: string, v: real): (r': Record)
    ensures KeySet(r') == KeySet(r) + {key}
    ensures Get(r', key) == Some(v)
    ensures forall k :: k != key ==> Get(r', k) == Get(r, k)
  {
    if r == [] then [Entry(key, v)]
    else if r[0].emotion == key then [Entry(key, v)] + r[1..]
    else [r[0]] + Put(r[1..], key, v)
  }

  /** Assignment keeps the keys distinct. */
  lemma {:induction false} PutDistinct(r: Record, key: string, v: real)
    requires Distinct(r)
    ensures Distinct(Put(r, key, v))
  {
    if r != [] {
      DistinctCons(r);
      var r' := Put(r, key, v);
      if r[0].emotion != key {
        PutDistinct(r[1..], key, v);
        assert r'[1..] == Put(r[1..], key, v);
      } else {
        assert r'[1..] == r[1..];
      }
      DistinctCons(r');
    }
  }

  /** An existing key keeps its place and a new key goes last. */
  lemma {:induction false} PutKeyOrder(r: Record, key: string, v: real)
    ensures key in KeySet(r) ==> Keys(Put(r, key, v)) == Keys(r)
    ensures key !in KeySet(r) ==> Keys(Put(r, key, v)) == Keys(r) + [key]
  {
    if r != [] {
      var r' := Put(r, key, v);
      if r[0].emotion != key {
        PutKeyOrder(r[1..], key, v);
        assert r'[1..] == Put(r[1..], key, v);
        assert Keys(r') == [r[0].emotion] + Keys(r'[1..]);
      } else {
        assert r'[1..] == r[1..];
      }
    }
  }

  /** The keys of a concatenation. */
  lemma {:induction false} KeySetAppend(a: Record, b: Record)
    ensures KeySet(a + b) == KeySet(a) + KeySet(b)
  {
    if a == [] {
      assert a + b == b;
    } else {
      KeySetAppend(a[1..], b);
      assert (a + b)[1..] == a[1..] + b;
    }
  }

  /** An entry of a record with distinct keys is what `Get` reads for its key. */
  lemma EntryOfDistinct(r: Record, e: Entry)
    requires Distinct(r) && e in r
    ensures GetOrZero(r, e.emotion) == e.score
  {
    var i :| 0 <= i < |r| && r[i] == e;
    GetAt(r, i);
  }

  /** `Get` reads the entry at a key's position. */
  lemma {:induction false} GetAt(r: Record, i: nat)
    requires Distinct(r) && i < |r|
    ensures Get(r, r[i].emotion) == Some(r[i].score)
  {
    if i > 0 {
      DistinctCons(r);
      GetAt(r[1..], i - 1);
      assert r[1..][i - 1] == r[i];
      KeySetMembers(r[1..]);
    }
  }

  /** A record with distinct keys has one entry per key. */
  lemma {:induction false} DistinctKeyCount(r: Record)
    requires Distinct(r)
    ensures |KeySet(r)| == |r|
  {
    if r != [] {
      DistinctCons(r);
      DistinctKeyCount(r[1..]);
    }
  }
}

=== FILE: rolling_aggregator.dfy ===
/** The live analyzer of `app/emotion-recognition`: each time the recorder
    adds a segment, the newest segment is scored and the reply updates a
    trail of valence/arousal points and a five-second emotion history.

    The network call, `parseEmotionResult` (which turns a reply into its
    top three emotions and a valence/arousal pair) and the
    `computeProportions`/`getTopNByPercent` ranking are outside this
    model: the parsed reply is an input (`None` when the request or the
    parsing failed) and the ranking is a function parameter. */
module RollingAggregator {

  import opened Wrappers
  import opened Records
  import opened Audio
  import opened RollingWindow
  import EmotionUtils

  /** One point of the radar trail; `isNew` marks the latest one. */
  datatype VadPoint = VadPoint(valence: real, arousal: real, isNew: bool, timestamp: int)

  /** What `parseEmotionResult` yields: the three strongest emotions
      (scores in 0..1) and a valence/arousal pair. */
  datatype Parsed = Parsed(top3: seq<Entry>, valence: real, arousal: real)

  /** The analyzer's state: the history reference, the trail and the
      ranked display. */
  datatype Analyzer = Analyzer(history: seq<HistoryEntry>, trail: seq<VadPoint>, display: seq<Entry>)

  /** `Math.max(0, Math.min(1, v))`. */
  function Clamp(v: real): (c: real)
    ensures 0.0 <= c <= 1.0
    ensures 0.0 <= v <= 1.0 ==> c == v
    ensures v < 0.0 ==> c == 0.0
    ensures v > 1.0 ==> c == 1.0
  {
    var m := if 1.0 < v then 1.0 else v;
    if 0.0 > m then 0.0 else m
  }

  /** Clamping twice is clamping once. */
  lemma ClampIdempotent(v: real)
    ensures Clamp(Clamp(v)) == Clamp(v)
  {
  }

  /** The segment `processLatestSegment` submits: the last one, if any. */
  function LatestSegment(segments: seq<Segment>): (latest: Option<Segment>)
    ensures latest.Some? <==> |segments| > 0
    ensures latest.Some? ==> latest.value == segments[|segments| - 1]
  {
    if |segments| > 0 then Some(segments[|segments| - 1]) else None
  }

  /** Marks every earlier point as old and appends the clamped new point. */
  function AddVadPoint(trail: seq<VadPoint>, valence: real, arousal: real, timestamp: int)
    : (trail': seq<VadPoint>)
    ensures |trail'| == |trail| + 1
    ensures trail'[|trail|] == VadPoint(Clamp(valence), Clamp(arousal), true, timestamp)
    ensures forall i :: 0 <= i < |trail| ==> trail'[i] == trail[i].(isNew := false)
  {
    seq(|trail|, i requires 0 <= i < |trail| => trail[i].(isNew := false))
      + [VadPoint(Clamp(valence), Clamp(arousal), true, timestamp)]
  }

  /** After an update exactly the last point is new, and every point lies
      in the unit square when the earlier ones did. */
  lemma AddVadPointMarksOnlyLast(trail: seq<VadPoint>, valence: real, arousal: real, timestamp: int)
    ensures var t := AddVadPoint(trail, valence, arousal, timestamp);
      forall i :: 0 <= i < |t| ==> (t[i].isNew <==> i == |t| - 1)
    ensures var t := AddVadPoint(trail, valence, arousal, timestamp);
      (forall i :: 0 <= i < |trail| ==> InUnitSquare(trail[i])) ==>
      forall i :: 0 <= i < |t| ==> InUnitSquare(t[i])
  {
  }

  predicate InUnitSquare(p: VadPoint) {
    0.0 <= p.valence <= 1.0 && 0.0 <= p.arousal <= 1.0
  }

  /** The history after a reply at `now`: the previous history plus one
      entry per top emotion, all stamped `now`, cut to the last 5000 ms. */
  function NextHistory(history: seq<HistoryEntry>, top3: seq<Entry>, now: int): seq<HistoryEntry> {
    Window(history + Stamp(top3, now), now)
  }

  /** `processLatestSegment`, given the parsed reply for the latest
      segment (or `None` when there is no segment, or the request or its
      parsing failed), the time the reply is handled (`now`), the time
      the new trail point is stamped with, and the ranking applied to the
      window's totals. */
  function ProcessLatestSegment(
    a: Analyzer, segments: seq<Segment>, reply: Option<Parsed>,
    now: int, pointTime: int, rank: Record -> seq<Entry>): (a': Analyzer)
    ensures segments == [] || reply.None? ==> a' == a
    ensures segments != [] && reply.Some? ==>
      && a'.trail == AddVadPoint(a.trail, reply.value.valence, reply.value.arousal, pointTime)
      && a'.history == NextHistory(a.history, reply.value.top3, now)
      && a'.display == rank(EmotionUtils.Aggregate(AsEntries(a'.history)))
  {
    if LatestSegment(segments).None? || reply.None? then a
    else
      var p := reply.value;
      var trail := AddVadPoint(a.trail, p.valence, p.arousal, pointTime);
      var pushed := a.history + Stamp(p.top3, now);
      var window5 := Window(pushed, now);
      var display := rank(EmotionUtils.Aggregate(AsEntries(window5)));
      Analyzer(Window(pushed, now), trail, display)
  }

  /** The history after an update holds exactly the old and new entries
      that are at most 5000 ms old; the new ones are always among them,
      and a second pruning at the same instant removes nothing. */
  lemma NextHistoryIsWindow(history: seq<HistoryEntry>, top3: seq<Entry>, now: int)
    ensures forall h :: h in NextHistory(history, top3, now) <==>
      (h in history || h in Stamp(top3, now)) && InWindow(now, h)
    ensures forall e :: e in top3 ==> HistoryEntry(e.emotion, e.score, now) in NextHistory(history, top3, now)
    ensures Window(NextHistory(history, top3, now), now) == NextHistory(history, top3, now)
  {
    var stamped := Stamp(top3, now);
    WindowMembers(history + stamped, now);
    WindowIdempotent(history + stamped, now);
    forall e | e in top3 ensures HistoryEntry(e.emotion, e.score, now) in history + stamped {
      var i :| 0 <= i < |top3| && top3[i] == e;
      assert stamped[i] == HistoryEntry(e.emotion, e.score, now);
    }
  }
}

=== FILE: rolling_window.dfy ===
/** The five-second rolling window both live analyzers apply to their
    emotion history: an entry counts while the time elapsed since it was
    recorded is at most 5000 ms. */
module RollingWindow {

  import opened Records

  /** One `{ label, score, timestamp }` history item; the timestamp is in ms. */
  datatype HistoryEntry = HistoryEntry(emotion: string, score: real, timestamp: int)

  const WindowMs: int := 5000

  predicate InWindow(now: int, h: HistoryEntry) {
    now - h.timestamp <= WindowMs
  }

  /** `history.filter(d => now - d.timestamp <= 5000)`. */
  function Window(history: seq<HistoryEntry>, now: int): (w: seq<HistoryEntry>)
    ensures |w| <= |history|
  {
    if history == [] then []
    else if InWindow(now, history[0]) then [history[0]] + Window(history[1..], now)
    else Window(history[1..], now)
  }

  /** The window holds exactly the entries of the history that are at
      most 5000 ms old. */
  lemma {:induction false} WindowMembers(history: seq<HistoryEntry>, now: int)
    ensures forall h :: h in Window(history, now) <==> h in history && InWindow(now, h)
  {
    if history != [] {
      WindowMembers(history[1..], now);
      assert history == [history[0]] + history[1..];
    }
  }

  /** Filtering distributes over concatenation, so the window keeps the
      order of the history. */
  lemma {:induction false} WindowAppend(a: seq<HistoryEntry>, b: seq<HistoryEntry>, now: int)
    ensures Window(a + b, now) == Window(a, now) + Window(b, now)
  {
    if a == [] {
      assert a + b == b;
    } else {
      var ab := a + b;
      assert ab[0] == a[0];
      assert ab[1..] == a[1..] + b;
      WindowAppend(a[1..], b, now);
      if InWindow(now, a[0]) {
        AppendAssoc([a[0]], Window(a[1..], now), Window(b, now));
      }
    }
  }

  lemma AppendAssoc<T>(x: seq<T>, y: seq<T>, z: seq<T>)
    ensures x + (y + z) == (x + y) + z
  {
  }

  /** Applying the window twice at the same instant changes nothing more. */
  lemma {:induction false} WindowIdempotent(history: seq<HistoryEntry>, now: int)
    ensures Window(Window(history, now), now) == Window(history, now)
  {
    if history != [] {
      WindowIdempotent(history[1..], now);
      if InWindow(now, history[0]) {
        assert ([history[0]] + Window(history[1..], now))[1..] == Window(history[1..], now);
      }
    }
  }

  /** A history already inside the window is its own window. */
  lemma {:induction false} WindowOfRecent(history: seq<HistoryEntry>, now: int)
    requires forall i :: 0 <= i < |history| ==> InWindow(now, history[i])
    ensures Window(history, now) == history
  {
    if history != [] {
      WindowOfRecent(history[1..], now);
      assert history == [history[0]] + history[1..];
    }
  }

  /** Entries stamped with `now` itself, one per scored emotion. */
  function Stamp(scored: seq<Entry>, now: int): (hs: seq<HistoryEntry>)
    ensures |hs| == |scored|
    ensures forall i :: 0 <= i < |scored| ==>
      hs[i] == HistoryEntry(scored[i].emotion, scored[i].score, now)
  {
    seq(|scored|, i requires 0 <= i < |scored| => HistoryEntry(scored[i].emotion, scored[i].score, now))
  }

  /** The label/score view of history entries, as aggregation reads them. */
  function AsEntries(history: seq<HistoryEntry>): (es: seq<Entry>)
    ensures |es| == |history|
    ensures forall i :: 0 <= i < |history| ==>
      es[i] == Entry(history[i].emotion, history[i].score)
  {
    seq(|history|, i requires 0 <= i < |history| => Entry(history[i].emotion, history[i].score))
  }
}

=== FILE: segmenter.dfy ===
/** The segmenting recorder hook (`useAudioRecording`): a once-per-second
    timer counts seconds and, every third second, cuts the audio buffered
    since the last cut into a segment `[watermark, duration)`; stopping
    cuts a final, possibly shorter, segment.

    Browser callbacks become explicit events.  `MediaRecorder` is reduced
    to its state and its `dataavailable` deliveries, the interval timer to
    `Tick`, and every `setTimeout` callback to an entry of a first-in
    first-out queue that `FireTimer` runs.  A segment key
    `${start}-${end}` is modelled as the pair itself: both bounds are
    non-negative integers, so the string determines the pair. */
module Segmenter {

  import opened Audio

  /** A segment key: its start and end second. */
  datatype Span = Span(start: int, end: int)

  /** `MediaRecorder.state`. */
  datatype RecorderState = Inactive | Recording | Paused

  /** A `setTimeout` callback still to run: the 50 ms one of
      `createAudioSegment`, or the 100 ms one of the stop path, which also
      marks its key processed and stops the recorder. */
  datatype Pending = TickFinalize(span: Span) | StopFinalize(span: Span)

  /** The refs and state of the hook.  `stream` records that a stream was
      ever obtained; `timerOn` that the interval is installed; `requesting`
      that a microphone request is awaiting its answer; `scheduled` is not
      in the hook: it logs every key handed to the segment path, in order,
      so that the properties below can speak about it. */
  datatype State = State(
    duration: int,
    watermark: int,
    processed: set<Span>,
    inFlight: bool,
    chunks: seq<Blob>,
    segments: seq<Segment>,
    recorder: RecorderState,
    stream: bool,
    timerOn: bool,
    requesting: bool,
    pending: seq<Pending>,
    scheduled: seq<Span>)

  /** The hook as first mounted. */
  function Initial(): State {
    State(0, 0, {}, false, [], [], Inactive, false, false, false, [], [])
  }

  /** `startRecordingProcess` up to its `await`: the counters, buffers,
      segments and keys are reset (the effect cleanup has cleared the
      interval) and the microphone is requested.  The in-flight flag, the
      recorder and the stream are left as they were. */
  function Request(s: State): (r: State)
    ensures r.duration == 0 && r.watermark == 0 && r.processed == {}
    ensures r.chunks == [] && r.segments == [] && r.scheduled == []
    ensures r.requesting && !r.timerOn
    ensures r.inFlight == s.inFlight && r.pending == s.pending
    ensures r.recorder == s.recorder && r.stream == s.stream
  {
    s.(duration := 0, segments := [], chunks := [], watermark := 0,
       processed := {}, scheduled := [], timerOn := false, requesting := true)
  }

  /** A request that first cancels the previous session's delayed
      callbacks (`clearTimeout`) and clears the in-flight flag with them,
      so that no callback of the old session reaches the new one.  Otherwise
      it is `Request`. */
  function RequestCancelling(s: State): (r: State)
    ensures r.pending == [] && !r.inFlight
    ensures r.(pending := s.pending, inFlight := s.inFlight) == Request(s)
  {
    Request(s).(pending := [], inFlight := false)
  }

  /** The answer to the microphone request, resuming `startRecordingProcess`:
      a grant stores the stream, starts a new recorder and installs the
      interval, whatever the recording flag has become meanwhile; a refusal
      lands in the `catch` and changes nothing else.  Without an awaited
      request nothing happens. */
  function Answer(s: State, granted: bool): (r: State)
    ensures !r.requesting
    ensures !s.requesting ==> r == s
    ensures s.requesting && granted ==> r.timerOn && r.recorder == Recording && r.stream
    ensures s.requesting && !granted ==> r == s.(requesting := false)
    ensures r.(requesting := s.requesting, timerOn := s.timerOn, recorder := s.recorder,
               stream := s.stream) == s
  {
    if !s.requesting then s
    else if granted then s.(requesting := false, stream := true, recorder := Recording, timerOn := true)
    else s.(requesting := false)
  }

  /** `ondataavailable`: only a chunk with data is buffered. */
  function OnData(s: State, b: Blob): (r: State)
    ensures b.size > 0 ==> r.chunks == s.chunks + [b]
    ensures b.size == 0 ==> r.chunks == s.chunks
    ensures r.(chunks := s.chunks) == s
  {
    if b.size > 0 then s.(chunks := s.chunks + [b]) else s
  }

  /** `finalizeSegment`: a non-empty buffer whose blob has data becomes one
      segment with the given bounds and is emptied; otherwise segments and
      buffer stay.  Either way nothing is in flight afterwards. */
  function Finalize(s: State, span: Span): (r: State)
    ensures !r.inFlight
    ensures s.chunks != [] && SizeOf(s.chunks) > 0 ==>
      r.segments == s.segments + [Segment(s.chunks, span.start, span.end)] && r.chunks == []
    ensures !(s.chunks != [] && SizeOf(s.chunks) > 0) ==>
      r.segments == s.segments && r.chunks == s.chunks
    ensures r.(inFlight := s.inFlight, segments := s.segments, chunks := s.chunks) == s
  {
    if s.chunks != [] && SizeOf(s.chunks) > 0 then
      s.(segments := s.segments + [Segment(s.chunks, span.start, span.end)], chunks := [],
         inFlight := false)
    else
      s.(inFlight := false)
  }

  /** `createAudioSegment`: nothing while a segment is in flight; otherwise
      mark one in flight and finalize after a delay when recording, or at
      once when not. */
  function CreateSegment(s: State, span: Span): (r: State)
    ensures s.inFlight ==> r == s
    ensures !s.inFlight && s.recorder == Recording ==>
      r == s.(inFlight := true, pending := s.pending + [TickFinalize(span)])
    ensures !s.inFlight && s.recorder != Recording ==> r == Finalize(s, span)
  {
    if s.inFlight then s
    else
      var s' := s.(inFlight := true);
      if s.recorder == Recording then s'.(pending := s.pending + [TickFinalize(span)])
      else Finalize(s', span)
  }

  /** The key a tick would cut, `[watermark, duration)`. */
  function TickSpan(s: State): Span {
    Span(s.watermark, s.duration + 1)
  }

  /** One interval callback: count a second; on every third second, when
      nothing is in flight and the span is non-empty and new, cut it and
      move the watermark to its end. */
  function Tick(s: State): (r: State)
    ensures !s.timerOn ==> r == s
    ensures s.timerOn ==> r.duration == s.duration + 1
    ensures r.watermark >= s.watermark
    ensures r.scheduled == s.scheduled || r.scheduled == s.scheduled + [TickSpan(s)]
    ensures r.scheduled != s.scheduled <==>
      s.timerOn && (s.duration + 1) % 3 == 0 && !s.inFlight &&
      s.watermark < s.duration + 1 && TickSpan(s) !in s.processed
    ensures r.scheduled != s.scheduled ==> r.watermark == r.duration && TickSpan(s) in r.processed
    ensures r.scheduled == s.scheduled ==> r == s.(duration := r.duration)
    // a scheduled key goes down `createAudioSegment`: delayed while recording,
    ensures r.scheduled != s.scheduled && s.recorder == Recording ==>
      && r.inFlight && r.pending == s.pending + [TickFinalize(TickSpan(s))]
      && r.segments == s.segments && r.chunks == s.chunks
    // finalized at once otherwise
    ensures r.scheduled != s.scheduled && s.recorder != Recording ==>
      && !r.inFlight && r.pending == s.pending
      && if s.chunks != [] && SizeOf(s.chunks) > 0
         then r.segments == s.segments + [Segment(s.chunks, s.watermark, s.duration + 1)] && r.chunks == []
         else r.segments == s.segments && r.chunks == s.chunks
    ensures r.recorder == s.recorder && r.stream == s.stream && r.timerOn == s.timerOn
    // a scheduled key is only added to the processed keys; apart from the
    // segment path, the counters and the keys, nothing changes
    ensures r.scheduled != s.scheduled ==>
      && r.processed == s.processed + {TickSpan(s)}
      && r.(duration := s.duration, watermark := s.watermark, processed := s.processed,
            scheduled := s.scheduled, inFlight := s.inFlight, pending := s.pending,
            segments := s.segments, chunks := s.chunks) == s
  {
    if !s.timerOn then s
    else
      var d := s.duration + 1;
      var s1 := s.(duration := d);
      var key := Span(s.watermark, d);
      if d % 3 == 0 && !s.inFlight && s.watermark < d && key !in s.processed then
        var s2 := CreateSegment(s1, key);
        s2.(processed := s2.processed + {key}, watermark := d, scheduled := s2.scheduled + [key])
      else s1
  }

  /** One delayed callback, oldest first.  The stop callback also marks its
      key processed and stops a recorder that is still active. */
  function FireTimer(s: State): (r: State)
    ensures s.pending == [] ==> r == s
    ensures s.pending != [] ==> r.pending == s.pending[1..] && !r.inFlight
    // the callback finalizes its span: a buffer with data becomes the last segment and empties
    ensures s.pending != [] ==>
      var span := s.pending[0].span;
      if s.chunks != [] && SizeOf(s.chunks) > 0
      then r.segments == s.segments + [Segment(s.chunks, span.start, span.end)] && r.chunks == []
      else r.segments == s.segments && r.chunks == s.chunks
    ensures s.pending != [] && s.pending[0].StopFinalize? ==>
      r.recorder == Inactive && r.processed == s.processed + {s.pending[0].span}
    ensures s.pending != [] && s.pending[0].TickFinalize? ==>
      r.recorder == s.recorder && r.processed == s.processed
    ensures r.scheduled == s.scheduled && r.watermark == s.watermark && r.duration == s.duration
    // a callback never touches the interval, the stream or the request
    ensures r.(pending := s.pending, inFlight := s.inFlight, segments := s.segments,
               chunks := s.chunks, processed := s.processed, recorder := s.recorder) == s
  {
    if s.pending == [] then s
    else
      var t := Finalize(s.(pending := s.pending[1..]), s.pending[0].span);
      match s.pending[0]
      case TickFinalize(_) => t
      case StopFinalize(span) => t.(processed := t.processed + {span}, recorder := Inactive)
  }

  /** The key a stop would cut, `[watermark, duration)`. */
  function StopSpan(s: State): Span {
    Span(s.watermark, s.duration)
  }

  /** `stopRecordingProcess`: an active recorder with an uncut, non-empty,
      new final span gets a final segment — delayed when recording, at once
      when paused; any other active recorder just stops.  The timer is
      cleared and the duration reset. */
  function StopProcess(s: State): (r: State)
    ensures r.duration == 0 && !r.timerOn && r.watermark == s.watermark
    ensures r.scheduled == s.scheduled || r.scheduled == s.scheduled + [StopSpan(s)]
    ensures r.scheduled != s.scheduled <==>
      s.recorder != Inactive && s.duration > s.watermark && StopSpan(s) !in s.processed
    ensures s.recorder == Recording && r.scheduled != s.scheduled ==>
      r.pending == s.pending + [StopFinalize(StopSpan(s))] && r.recorder == Recording
    ensures s.recorder != Inactive && r.scheduled == s.scheduled ==> r.recorder == Inactive
    // what each branch leaves alone: an inactive recorder only loses the timer
    ensures s.recorder == Inactive ==> r == s.(timerOn := false, duration := 0)
    // an active recorder with no final key is only stopped
    ensures s.recorder != Inactive && r.scheduled == s.scheduled ==>
      r == s.(recorder := Inactive, timerOn := false, duration := 0)
    // while recording, the final key only queues the delayed callback
    ensures s.recorder == Recording && r.scheduled != s.scheduled ==>
      r == s.(pending := s.pending + [StopFinalize(StopSpan(s))],
              scheduled := s.scheduled + [StopSpan(s)], timerOn := false, duration := 0)
    // while paused, the final key is finalized at once and marked processed;
    // the recorder is not stopped
    ensures s.recorder == Paused && r.scheduled != s.scheduled ==>
      && !r.inFlight && r.processed == s.processed + {StopSpan(s)}
      && (if s.chunks != [] && SizeOf(s.chunks) > 0
          then r.segments == s.segments + [Segment(s.chunks, s.watermark, s.duration)] && r.chunks == []
          else r.segments == s.segments && r.chunks == s.chunks)
      && r.(inFlight := s.inFlight, processed := s.processed, segments := s.segments,
            chunks := s.chunks, scheduled := s.scheduled, timerOn := s.timerOn,
            duration := s.duration) == s
  {
    var key := StopSpan(s);
    var stopped :=
      if s.recorder == Inactive then s
      else if s.duration > s.watermark && key !in s.processed then
        if s.recorder == Recording then
          s.(pending := s.pending + [StopFinalize(key)], scheduled := s.scheduled + [key])
        else
          var t := Finalize(s, key);
          t.(processed := t.processed + {key}, scheduled := t.scheduled + [key])
      else s.(recorder := Inactive);
    stopped.(timerOn := false, duration := 0)
  }

  /** The recording flag turning off: the effect cleanup clears the
      interval, and the stop path runs only once a stream was obtained. */
  function Stop(s: State): (r: State)
    ensures !r.timerOn
    ensures !s.stream ==> r == s.(timerOn := false)
    ensures s.stream ==> r == StopProcess(s)
  {
    if s.stream then StopProcess(s) else s.(timerOn := false)
  }

  // ---------------------------------------------------------------------
  // The invariant: emitted segments are ordered and never overlap.
  // ---------------------------------------------------------------------

  /** Non-empty spans, each ending no later than any later one starts. */
  predicate Ordered(xs: seq<Span>) {
    (forall i :: 0 <= i < |xs| ==> xs[i].start < xs[i].end) &&
    (forall i, j :: 0 <= i < j < |xs| ==> xs[i].end <= xs[j].start)
  }

  function SegmentSpans(segs: seq<Segment>): (xs: seq<Span>)
    ensures |xs| == |segs|
    ensures forall i :: 0 <= i < |segs| ==> xs[i] == Span(segs[i].startTime, segs[i].endTime)
  {
    seq(|segs|, i requires 0 <= i < |segs| => Span(segs[i].startTime, segs[i].endTime))
  }

  function PendingSpans(ps: seq<Pending>): (xs: seq<Span>)
    ensures |xs| == |ps|
    ensures forall i :: 0 <= i < |ps| ==> xs[i] == ps[i].span
  {
    seq(|ps|, i requires 0 <= i < |ps| => ps[i].span)
  }

  /** The spans of the segments made, then of those still to be finalized. */
  function Emitted(s: State): seq<Span> {
    SegmentSpans(s.segments) + PendingSpans(s.pending)
  }

  /** Every scheduled span ends no later than `bound`. */
  predicate EndsBy(xs: seq<Span>, bound: int) {
    forall i :: 0 <= i < |xs| ==> xs[i].end <= bound
  }

  /** Everything emitted was scheduled. */
  predicate EmittedScheduled(s: State) {
    forall i :: 0 <= i < |Emitted(s)| ==> Emitted(s)[i] in s.scheduled
  }

  /** The shape of the delay queue: only its head can be a tick
      finalization, and that one is in flight. */
  predicate QueueShape(s: State) {
    (forall i :: 0 < i < |s.pending| ==> s.pending[i].StopFinalize?) &&
    (s.pending != [] && s.pending[0].TickFinalize? ==> s.inFlight)
  }

  ghost predicate Inv(s: State) {
    && 0 <= s.watermark && 0 <= s.duration
    && AllNonEmpty(s.chunks)
    && s.recorder != Paused
    && Ordered(s.scheduled)
    && Ordered(Emitted(s))
    && EmittedScheduled(s)
    && (forall k :: k in s.processed ==> k in s.scheduled)
    && QueueShape(s)
    && (s.timerOn ==>
          && s.stream && s.recorder == Recording
          && s.watermark <= s.duration
          && EndsBy(s.scheduled, s.watermark)
          && (forall i :: 0 <= i < |s.pending| ==> s.pending[i].TickFinalize?))
    && (!s.timerOn ==> s.duration <= s.watermark)
    && (s.requesting ==>
          s.duration == 0 && s.watermark == 0 && s.scheduled == [] && s.pending == [] && !s.timerOn)
  }

  lemma InitialInv()
    ensures Inv(Initial())
  {
  }

  /** Appending a span that starts after every earlier end keeps order. */
  lemma {:induction false} OrderedSnoc(xs: seq<Span>, x: Span)
    requires Ordered(xs) && x.start < x.end
    requires EndsBy(xs, x.start)
    ensures Ordered(xs + [x])
  {
    var ys := xs + [x];
    forall i, j | 0 <= i < j < |ys| ensures ys[i].end <= ys[j].start {
      if j < |xs| {
        assert ys[i] == xs[i] && ys[j] == xs[j];
      } else {
        assert ys[i] == xs[i];
      }
    }
  }

  /** Emitted spans that were all scheduled end by the scheduled bound. */
  lemma EmittedEndsBy(s: State, bound: int)
    requires EmittedScheduled(s) && EndsBy(s.scheduled, bound)
    ensures EndsBy(Emitted(s), bound)
  {
    forall i | 0 <= i < |Emitted(s)| ensures Emitted(s)[i].end <= bound {
      var j :| 0 <= j < |s.scheduled| && s.scheduled[j] == Emitted(s)[i];
    }
  }

  lemma OnDataInv(s: State, b: Blob)
    requires Inv(s)
    ensures Inv(OnData(s, b))
  {
    var r := OnData(s, b);
    assert Emitted(r) == Emitted(s);
  }

  lemma RequestInv(s: State)
    requires Inv(s) && s.pending == []
    ensures Inv(Request(s))
  {
    var r := Request(s);
    assert Emitted(r) == [];
  }

  /** The cancelling request keeps the invariant whatever is pending. */
  lemma RequestCancellingInv(s: State)
    requires Inv(s)
    ensures Inv(RequestCancelling(s))
  {
    var r := RequestCancelling(s);
    assert Emitted(r) == [];
  }

  lemma AnswerInv(s: State, granted: bool)
    requires Inv(s)
    ensures Inv(Answer(s, granted))
  {
    var r := Answer(s, granted);
    assert Emitted(r) == Emitted(s);
  }

  /** Dropping one span from an ordered list keeps it ordered, and what
      is left was there before. */
  lemma OrderedDrop(a: seq<Span>, x: Span, b: seq<Span>)
    requires Ordered(a + [x] + b)
    ensures Ordered(a + b)
    ensures forall i :: 0 <= i < |a + b| ==> (a + b)[i] in a + [x] + b
  {
    var xs := a + [x] + b;
    var ys := a + b;
    forall i | 0 <= i < |ys| ensures ys[i] == xs[if i < |a| then i else i + 1] {
    }
  }

  lemma SegmentSpansSnoc(segs: seq<Segment>, seg: Segment)
    ensures SegmentSpans(segs + [seg]) == SegmentSpans(segs) + [Span(seg.startTime, seg.endTime)]
  {
  }

  lemma PendingSpansCons(ps: seq<Pending>)
    requires ps != []
    ensures PendingSpans(ps) == [ps[0].span] + PendingSpans(ps[1..])
  {
  }

  /** Finalizing the head of the queue turns it into the last segment or
      drops it, so the emitted spans stay ordered and scheduled. */
  lemma FireTimerEmitted(s: State)
    requires Ordered(Emitted(s)) && EmittedScheduled(s) && s.pending != []
    ensures Ordered(Emitted(FireTimer(s))) && EmittedScheduled(FireTimer(s))
  {
    var r := FireTimer(s);
    var segs := SegmentSpans(s.segments);
    var head := s.pending[0].span;
    var rest := PendingSpans(s.pending[1..]);
    PendingSpansCons(s.pending);
    assert Emitted(s) == segs + [head] + rest;
    if r.segments == s.segments {
      assert Emitted(r) == segs + rest;
      OrderedDrop(segs, head, rest);
    } else {
      SegmentSpansSnoc(s.segments, Segment(s.chunks, head.start, head.end));
      assert Emitted(r) == Emitted(s);
    }
  }

  lemma FireTimerInv(s: State)
    requires Inv(s)
    ensures Inv(FireTimer(s))
  {
    if s.pending != [] {
      var r := FireTimer(s);
      FireTimerEmitted(s);
      assert s.pending[0].span in s.scheduled by {
        assert Emitted(s)[|s.segments|] == s.pending[0].span;
      }
      assert AllNonEmpty(r.chunks);
    }
  }

  /** A tick during a session never finds its key already processed: the
      key ends past every scheduled span. */
  lemma TickKeyFresh(s: State)
    requires Inv(s) && s.timerOn
    ensures TickSpan(s) !in s.processed && TickSpan(s) !in s.scheduled
  {
    forall i | 0 <= i < |s.scheduled| ensures s.scheduled[i] != TickSpan(s) {
      assert s.scheduled[i].end <= s.watermark;
    }
  }

  /** Nor does a stop with time left since the last cut. */
  lemma StopKeyFresh(s: State)
    requires Inv(s) && s.duration > s.watermark
    ensures StopSpan(s) !in s.processed && StopSpan(s) !in s.scheduled
  {
    forall i | 0 <= i < |s.scheduled| ensures s.scheduled[i] != StopSpan(s) {
      assert s.scheduled[i].end <= s.watermark;
    }
  }

  lemma TickInv(s: State)
    requires Inv(s)
    ensures Inv(Tick(s))
  {
    var r := Tick(s);
    if r.scheduled != s.scheduled {
      var key := TickSpan(s);
      assert s.pending == [];
      assert r.pending == [TickFinalize(key)] && r.segments == s.segments;
      OrderedSnoc(s.scheduled, key);
      EmittedEndsBy(s, s.watermark);
      assert Emitted(s) == SegmentSpans(s.segments);
      assert Emitted(r) == Emitted(s) + [key];
      OrderedSnoc(Emitted(s), key);
      assert EndsBy(r.scheduled, r.watermark);
    } else {
      assert Emitted(r) == Emitted(s);
    }
  }

  lemma StopProcessInv(s: State)
    requires Inv(s)
    ensures Inv(StopProcess(s))
  {
    var r := StopProcess(s);
    if r.scheduled != s.scheduled {
      var key := StopSpan(s);
      OrderedSnoc(s.scheduled, key);
      EmittedEndsBy(s, s.watermark);
      assert PendingSpans(r.pending) == PendingSpans(s.pending) + [key];
      assert Emitted(r) == Emitted(s) + [key];
      OrderedSnoc(Emitted(s), key);
    } else {
      assert Emitted(r) == Emitted(s);
    }
  }

  lemma StopInv(s: State)
    requires Inv(s)
    ensures Inv(Stop(s))
  {
    if s.stream {
      StopProcessInv(s);
    } else {
      assert Emitted(Stop(s)) == Emitted(s);
    }
  }

  // ---------------------------------------------------------------------
  // Runs of events.
  // ---------------------------------------------------------------------

  /** The events the hook reacts to. */
  datatype Event =
    | RequestEv
    | AnswerEv(granted: bool)
    | DataEv(b: Blob)
    | TickEv
    | TimerEv
    | StopEv

  /** Which request a run uses: the one as written, or the one that
      cancels the previous session's delayed callbacks. */
  datatype Program = AsWritten | Cancelling

  function Step(p: Program, s: State, e: Event): State {
    match e
    case RequestEv => if p.AsWritten? then Request(s) else RequestCancelling(s)
    case AnswerEv(granted) => Answer(s, granted)
    case DataEv(b) => OnData(s, b)
    case TickEv => Tick(s)
    case TimerEv => FireTimer(s)
    case StopEv => Stop(s)
  }

  function Run(p: Program, s: State, es: seq<Event>): State
    decreases |es|
  {
    if es == [] then s else Run(p, Step(p, s, es[0]), es[1..])
  }

  /** As written, every request comes when no delayed callback is
      waiting: a restart within 100 ms of a stop lets the old stop
      callback finalize into, and stop, the new session.  The cancelling
      request needs no such condition. */
  predicate StartsWhenIdle(p: Program, s: State, es: seq<Event>)
    decreases |es|
  {
    es == [] ||
    ((p.AsWritten? && es[0].RequestEv? ==> s.pending == []) && StartsWhenIdle(p, Step(p, s, es[0]), es[1..]))
  }

  /** Every event keeps the invariant; as written, a request only when idle. */
  lemma StepInv(p: Program, s: State, e: Event)
    requires Inv(s) && (p.AsWritten? && e.RequestEv? ==> s.pending == [])
    ensures Inv(Step(p, s, e))
  {
    match e
    case RequestEv => if p.AsWritten? { RequestInv(s); } else { RequestCancellingInv(s); }
    case AnswerEv(granted) => AnswerInv(s, granted);
    case DataEv(b) => OnDataInv(s, b);
    case TickEv => TickInv(s);
    case TimerEv => FireTimerInv(s);
    case StopEv => StopInv(s);
  }

  /** Over any run that starts only when idle, the segments made are
      ordered, non-overlapping and non-empty, no key is scheduled twice,
      and every buffered chunk has data. */
  lemma {:induction false} RunKeepsInv(p: Program, s: State, es: seq<Event>)
    requires Inv(s) && StartsWhenIdle(p, s, es)
    ensures Inv(Run(p, s, es))
    decreases |es|
  {
    if es != [] {
      StepInv(p, s, es[0]);
      RunKeepsInv(p, Step(p, s, es[0]), es[1..]);
    }
  }

  /** What the invariant means for the hook's output: the segments are in
      time order, each non-empty, none overlapping; scheduled keys are
      pairwise distinct. */
  lemma InvMeansOrderedSegments(s: State)
    requires Inv(s)
    ensures forall i :: 0 <= i < |s.segments| ==> s.segments[i].startTime < s.segments[i].endTime
    ensures forall i, j :: 0 <= i < j < |s.segments| ==> s.segments[i].endTime <= s.segments[j].startTime
    ensures forall i, j :: 0 <= i < j < |s.scheduled| ==> s.scheduled[i] != s.scheduled[j]
  {
    var xs := Emitted(s);
    forall i | 0 <= i < |s.segments| ensures s.segments[i].startTime < s.segments[i].endTime {
      assert xs[i] == Span(s.segments[i].startTime, s.segments[i].endTime);
    }
    forall i, j | 0 <= i < j < |s.segments|
      ensures s.segments[i].endTime <= s.segments[j].startTime
    {
      assert xs[i] == Span(s.segments[i].startTime, s.segments[i].endTime);
      assert xs[j] == Span(s.segments[j].startTime, s.segments[j].endTime);
    }
  }

  /** From the mounted hook, every run that starts only when idle yields
      ordered, non-overlapping segments. */
  lemma RunFromInitial(es: seq<Event>)
    requires StartsWhenIdle(AsWritten, Initial(), es)
    ensures Inv(Run(AsWritten, Initial(), es))
  {
    InitialInv();
    RunKeepsInv(AsWritten, Initial(), es);
  }

  /** With the cancelling request every run is one that starts when idle. */
  lemma {:induction false} CancellingStartsWhenIdle(s: State, es: seq<Event>)
    ensures StartsWhenIdle(Cancelling, s, es)
    decreases |es|
  {
    if es != [] {
      CancellingStartsWhenIdle(Step(Cancelling, s, es[0]), es[1..]);
    }
  }

  /** With the cancelling request, every run from the mounted hook yields
      ordered, non-overlapping segments, however soon a new session
      follows a stop. */
  lemma RunFromInitialCancelling(es: seq<Event>)
    ensures Inv(Run(Cancelling, Initial(), es))
  {
    InitialInv();
    CancellingStartsWhenIdle(Initial(), es);
    RunKeepsInv(Cancelling, Initial(), es);
  }

  /** As written, a request, a grant, one chunk and one second, a stop,
      and a restart before the stop callback fires: the callback
      finalizes the new session's audio under the old key, marks that key
      processed in the new session, and stops the new recorder while its
      interval keeps running. */
  lemma LateStopCallbackHitsNewSession()
    ensures var stopped := Stop(Tick(OnData(Answer(Request(Initial()), true), Blob(1, 1))));
      var s := FireTimer(OnData(Answer(Request(stopped), true), Blob(2, 1)));
      && s.segments == [Segment([Blob(2, 1)], 0, 1)] && s.scheduled == []
      && Span(0, 1) in s.processed
      && s.timerOn && s.recorder == Inactive
      && !Inv(s)
  {
  }

  /** The same events with the cancelling request leave the new session
      recording, with nothing finalized into it. */
  lemma CancellingKeepsNewSession()
    ensures var stopped := Stop(Tick(OnData(Answer(Request(Initial()), true), Blob(1, 1))));
      var s := FireTimer(OnData(Answer(RequestCancelling(stopped), true), Blob(2, 1)));
      && s.segments == [] && s.chunks == [Blob(2, 1)] && s.processed == {}
      && s.timerOn && s.recorder == Recording
  {
  }

  /** A stop while the microphone request is awaited finds no timer and,
      in a first session, no stream; the grant that follows still starts
      the recorder and the interval. */
  lemma GrantAfterStopStillRecords()
    ensures var s := Run(AsWritten, Initial(), [RequestEv, StopEv, AnswerEv(true)]);
      s.timerOn && s.recorder == Recording && s.stream
  {
  }
}

=== FILE: streaming_aggregator.dfy ===
/** The live analyzer of `src/components/main.tsx`: the recorder emits a
    chunk every five seconds; each non-empty chunk is converted and
    scored, and the reply's strongest emotion joins a history from which
    the top three of the last five seconds are shown.

    The WAV conversion and the network call are outside this model: the
    parsed reply is an input, `None` when conversion, the request or the
    JSON parsing failed. */
module StreamingAggregator {

  import opened Wrappers
  import opened Records
  import opened RollingWindow
  import opened EmotionUtils
  import Text

  /** The component's state: the history reference, the top-three
      display, the valence/arousal chart data and the seconds counter. */
  datatype Live = Live(history: seq<HistoryEntry>, top3: seq<Entry>, va: seq<AxisValue>, duration: int)

  /** The initial state: empty history and display, both axes at 0. */
  function Initial(): (s: Live)
    ensures s.history == [] && s.top3 == [] && s.duration == 0
    ensures s.va == [AxisValue(Valence, 0.0), AxisValue(Arousal, 0.0)]
  {
    Live([], [], [AxisValue(Valence, 0.0), AxisValue(Arousal, 0.0)], 0)
  }

  /** The history entry made from a reply's first element. */
  function FirstEntry(first: Entry, timestamp: int): HistoryEntry {
    HistoryEntry(Text.Lower(first.emotion), first.score * 100.0, timestamp)
  }

  /** The totals of the last five seconds of `history`, as seen at `now`. */
  function WindowTotals(history: seq<HistoryEntry>, now: int): Record {
    Aggregate(AsEntries(Window(history, now)))
  }

  /** `recorder.ondataavailable`: a chunk of `size` bytes recorded at
      `timestamp` whose reply is `reply`. */
  function OnData(s: Live, size: nat, timestamp: int, reply: Option<Response>): (s': Live)
    ensures size == 0 || reply.None? ==> s' == s
    // the history only ever grows, by at most one entry
    ensures |s.history| <= |s'.history| <= |s.history| + 1
    ensures s'.history[..|s.history|] == s.history
    ensures s'.duration == s.duration
    // an array reply with elements adds its first element, and re-ranks
    ensures size > 0 && reply.Some? && reply.value.items.Some? && |reply.value.items.value| > 0 ==>
      && s'.history == s.history + [FirstEntry(reply.value.items.value[0], timestamp)]
      && s'.top3 == GetTopEmotions(WindowTotals(s'.history, timestamp), 3)
    // any other reply leaves history and display as they were
    ensures reply.Some? && (reply.value.items.None? || |reply.value.items.value| == 0) ==>
      s'.history == s.history && s'.top3 == s.top3
    // a `vad` object replaces the chart data, valence first
    ensures size > 0 && reply.Some? && reply.value.vad.Some? ==>
      s'.va == [AxisValue(Valence, reply.value.vad.value.valence.GetOr(0.0)),
                AxisValue(Arousal, reply.value.vad.value.arousal.GetOr(0.0))]
    ensures reply.Some? && reply.value.vad.None? ==> s'.va == s.va
  {
    if size == 0 || reply.None? then s
    else
      var res := reply.value;
      var s1 := if res.vad.Some? then
          s.(va := [AxisValue(Valence, res.vad.value.valence.GetOr(0.0)),
                    AxisValue(Arousal, res.vad.value.arousal.GetOr(0.0))])
        else s;
      if res.items.Some? && |res.items.value| > 0 then
        var history := s1.history + [FirstEntry(res.items.value[0], timestamp)];
        s1.(history := history, top3 := GetTopEmotions(WindowTotals(history, timestamp), 3))
      else s1
  }

  /** The display after an array reply is a true top three of the window:
      at most three emotions, strongest first, each shown with its total
      over the entries of the last five seconds, and no emotion left out
      of it has a larger total than one shown. */
  lemma OnDataRanksWindow(s: Live, size: nat, timestamp: int, reply: Option<Response>)
    requires size > 0 && reply.Some? && reply.value.items.Some? && |reply.value.items.value| > 0
    ensures var s' := OnData(s, size, timestamp, reply);
      var window5 := AsEntries(Window(s'.history, timestamp));
      && |s'.top3| <= 3
      && |s'.top3| == (if |KeySet(window5)| < 3 then |KeySet(window5)| else 3)
      && SortedDesc(s'.top3)
      && Distinct(s'.top3)
      && (forall e :: e in s'.top3 ==> e.score == SumOf(window5, e.emotion) && e.emotion in KeySet(window5))
      && (forall i, k :: 0 <= i < |s'.top3| && k in KeySet(window5) && k !in KeySet(s'.top3) ==>
            SumOf(window5, k) <= s'.top3[i].score)
  {
    var s' := OnData(s, size, timestamp, reply);
    var window5 := AsEntries(Window(s'.history, timestamp));
    TopCount(window5);
    TopScoresAreTotals(window5);
    TopBeatsRest(window5);
  }

  /** The top three of some entries' totals has min(3, #emotions) entries. */
  lemma TopCount(data: seq<Entry>)
    ensures var top := GetTopEmotions(Aggregate(data), 3);
      |top| == (if |KeySet(data)| < 3 then |KeySet(data)| else 3) && Distinct(top)
  {
    DistinctKeyCount(Aggregate(data));
  }

  /** Each shown score is the total of its emotion. */
  lemma TopScoresAreTotals(data: seq<Entry>)
    ensures var top := GetTopEmotions(Aggregate(data), 3);
      forall e :: e in top ==> e.score == SumOf(data, e.emotion) && e.emotion in KeySet(data)
  {
    var totals := Aggregate(data);
    var top := GetTopEmotions(totals, 3);
    KeySetMembers(totals);
    forall e | e in top ensures e.score == SumOf(data, e.emotion) && e.emotion in KeySet(data) {
      EntryOfDistinct(totals, e);
    }
  }

  /** No emotion left out of the top three has a larger total than one in it. */
  lemma TopBeatsRest(data: seq<Entry>)
    ensures var top := GetTopEmotions(Aggregate(data), 3);
      forall i, k :: 0 <= i < |top| && k in KeySet(data) && k !in KeySet(top) ==>
        SumOf(data, k) <= top[i].score
  {
    var totals := Aggregate(data);
    var top := GetTopEmotions(totals, 3);
    KeySetMembers(totals);
    KeySetMembers(top);
    forall i, k | 0 <= i < |top| && k in KeySet(data) && k !in KeySet(top)
      ensures SumOf(data, k) <= top[i].score
    {
      var j :| 0 <= j < |totals| && totals[j].emotion == k;
      EntryOfDistinct(totals, totals[j]);
      assert totals[j] !in top;
    }
  }

  /** The one-second duration timer. */
  function Tick(s: Live): (s': Live)
    ensures s'.duration == s.duration + 1
    ensures s'.history == s.history && s'.top3 == s.top3 && s'.va == s.va
  {
    s.(duration := s.duration + 1)
  }

  /** The effect cleanup when recording stops: the history is emptied and
      the counter reset; the display and chart keep their last values. */
  function Cleanup(s: Live): (s': Live)
    ensures s'.history == [] && s'.duration == 0
    ensures s'.top3 == s.top3 && s'.va == s.va
  {
    s.(history := [], duration := 0)
  }

  /** The chart data set from a `vad` object lists the same two values
      as the shared chart helper, in the opposite order. */
  lemma VaMatchesChartHelper(s: Live, size: nat, timestamp: int, reply: Option<Response>)
    requires size > 0 && reply.Some? && reply.value.vad.Some?
    ensures var va := OnData(s, size, timestamp, reply).va;
      var chart := FormatVadForChart(reply.value);
      va == [AxisValue(chart[1].axis, chart[1].value), AxisValue(chart[0].axis, chart[0].value)]
  {
  }
}

=== FILE: text.dfy ===
/** The small amount of string handling the analyzers do: `toLowerCase`
    on emotion labels returned by the inference service. */
module Text {

  /** Lower-cases one character in the ASCII range; every other character
      is left as it is. */
  function LowerChar(c: char): (r: char)
    ensures 'A' <= c <= 'Z' ==> 'a' <= r <= 'z' && r as int - c as int == 32
    ensures !('A' <= c <= 'Z') ==> r == c
    ensures !('A' <= r <= 'Z')
  {
    if 'A' <= c <= 'Z' then (c as int + 32) as char else c
  }

  /** `s.toLowerCase()` restricted to ASCII letters. */
  function Lower(s: string): (r: string)
    ensures |r| == |s|
    ensures forall i :: 0 <= i < |s| ==> r[i] == LowerChar(s[i])
  {
    seq(|s|, i requires 0 <= i < |s| => LowerChar(s[i]))
  }

  predicate IsLower(s: string) {
    forall i :: 0 <= i < |s| ==> !('A' <= s[i] <= 'Z')
  }

  /** Lower-casing yields a lower-case string, and does nothing to one. */
  lemma LowerIsLower(s: string)
    ensures IsLower(Lower(s))
    ensures IsLower(s) ==> Lower(s) == s
  {
  }

  /** Lower-casing twice is lower-casing once. */
  lemma LowerIdempotent(s: string)
    ensures Lower(Lower(s)) == Lower(s)
  {
    LowerIsLower(s);
  }
}

=== FILE: upload_analyzer.dfy ===
/** The upload page of `src/components/AudioEmotionAnalyzer.tsx`: an audio
    file is scored once, the reply fills a table of seven fixed emotions,
    and the strongest of them is shown.

    The upload request is outside this model: its parsed reply is an
    input, `None` when the request or its parsing failed. */
module UploadAnalyzer {

  import opened Wrappers
  import opened Records
  import opened EmotionUtils
  import Text

  /** The seven keys of the score table, in declaration order. */
  const EmotionKeys: seq<string> :=
    ["happy", "sad", "angry", "neutral", "surprised", "fearful", "disgusted"]

  /** A table holding each of `keys`, in order, at 0. */
  function ZeroRecord(keys: seq<string>): (r: Record)
    ensures Keys(r) == keys
  {
    if keys == [] then [] else [Entry(keys[0], 0.0)] + ZeroRecord(keys[1..])
  }

  /** Every key of a zero table reads 0, and so does every entry. */
  lemma {:induction false} ZeroRecordValues(keys: seq<string>)
    ensures forall k :: k in keys ==> Get(ZeroRecord(keys), k) == Some(0.0)
    ensures forall i :: 0 <= i < |keys| ==> ZeroRecord(keys)[i].score == 0.0
  {
    if keys != [] {
      ZeroRecordValues(keys[1..]);
      var r := ZeroRecord(keys);
      assert r[1..] == ZeroRecord(keys[1..]);
      forall i | 0 < i < |keys| ensures r[i].score == 0.0 {
        assert r[i] == r[1..][i - 1];
      }
      forall k | k in keys ensures Get(r, k) == Some(0.0) {
        if k != keys[0] {
          assert k in keys[1..];
        }
      }
    }
  }

  /** The table every upload starts from: each emotion at 0. */
  const ZeroScores: Record := ZeroRecord(EmotionKeys)

  /** An uploaded file, known only by identity. */
  datatype AudioFile = AudioFile(id: int)

  /** The page state: the chosen file and its object URL, the emotion
      shown, the score table, the playing and loading flags, and the number
      of uploads whose reply is still awaited. */
  datatype Page = Page(file: Option<AudioFile>, url: Option<string>, emotion: Option<string>,
                       scores: Record, playing: bool, loading: bool, awaiting: nat)

  /** The lower-cased label of a reply element. */
  function KeyOf(e: Entry): string {
    Text.Lower(e.emotion)
  }

  /** A reply element as the loop assigns it: lower-cased label, score in percent. */
  function Scaled(e: Entry): Entry {
    Entry(KeyOf(e), e.score * 100.0)
  }

  /** One `result.forEach` step: a known key takes the new score; any other
      key is ignored. */
  function Assign(table: Record, e: Entry): Record {
    if e.emotion in KeySet(table) then Put(table, e.emotion, e.score) else table
  }

  /** The loop over a table: every element is assigned in turn. */
  function Fold(table: Record, items: seq<Entry>): (t: Record)
    ensures KeySet(t) == KeySet(table)
    decreases |items|
  {
    if items == [] then table
    else Assign(Fold(table, items[..|items| - 1]), items[|items| - 1])
  }

  /** Assignments never move or add a key. */
  lemma {:induction false} FoldKeys(table: Record, items: seq<Entry>)
    ensures Keys(Fold(table, items)) == Keys(table)
    decreases |items|
  {
    if items != [] {
      var prev := Fold(table, items[..|items| - 1]);
      FoldKeys(table, items[..|items| - 1]);
      PutKeyOrder(prev, items[|items| - 1].emotion, items[|items| - 1].score);
    }
  }

  /** One step reads back the new score for its own key and leaves every
      other known key alone. */
  lemma AssignGet(table: Record, e: Entry, k: string)
    requires k in KeySet(table)
    ensures Get(Assign(table, e), k) == if e.emotion == k then Some(e.score) else Get(table, k)
  {
  }

  /** Index `i` is the last element whose key is `k`. */
  predicate LastWithKey(items: seq<Entry>, k: string, i: int) {
    0 <= i < |items| && items[i].emotion == k &&
    forall j :: i < j < |items| ==> items[j].emotion != k
  }

  /** A known key ends up with the score of the last element carrying it. */
  lemma {:induction false} FoldLastWins(table: Record, items: seq<Entry>, k: string, i: int)
    requires k in KeySet(table) && LastWithKey(items, k, i)
    ensures Get(Fold(table, items), k) == Some(items[i].score)
    decreases |items|
  {
    var prefix := items[..|items| - 1];
    AssignGet(Fold(table, prefix), items[|items| - 1], k);
    if i < |items| - 1 {
      assert LastWithKey(prefix, k, i) by {
        forall j | i < j < |prefix| ensures prefix[j].emotion != k {
          assert prefix[j] == items[j];
        }
      }
      FoldLastWins(table, prefix, k, i);
      assert prefix[i] == items[i];
    }
  }

  /** A known key no element carries keeps its score. */
  lemma {:induction false} FoldUnmatched(table: Record, items: seq<Entry>, k: string)
    requires k in KeySet(table)
    requires forall i :: 0 <= i < |items| ==> items[i].emotion != k
    ensures Get(Fold(table, items), k) == Get(table, k)
    decreases |items|
  {
    if items != [] {
      var prefix := items[..|items| - 1];
      AssignGet(Fold(table, prefix), items[|items| - 1], k);
      FoldUnmatched(table, prefix, k);
    }
  }

  /** The reply elements as the loop assigns them. */
  function ScaledAll(items: seq<Entry>): (xs: seq<Entry>)
    ensures |xs| == |items| && forall i :: 0 <= i < |items| ==> xs[i] == Scaled(items[i])
  {
    seq(|items|, i requires 0 <= i < |items| => Scaled(items[i]))
  }

  /** The table built from an array reply: the zero table with every
      element assigned, which keeps the seven keys in their order. */
  function ScoreTable(items: seq<Entry>): Record {
    Fold(ZeroScores, ScaledAll(items))
  }

  /** The table always lists the seven emotions, in their order. */
  lemma ScoreTableKeys(items: seq<Entry>)
    ensures Keys(ScoreTable(items)) == EmotionKeys
  {
    FoldKeys(ZeroScores, ScaledAll(items));
  }

  /** A record whose keys are the seven emotions has each of them as a key. */
  lemma KnownKeys(table: Record)
    requires Keys(table) == EmotionKeys
    ensures forall k :: k in EmotionKeys ==> k in KeySet(table)
  {
    KeySetMembers(table);
    forall k | k in EmotionKeys ensures k in KeySet(table) {
      var i :| 0 <= i < |EmotionKeys| && EmotionKeys[i] == k;
      assert Keys(table)[i] == table[i].emotion;
    }
  }

  /** Index `i` is the last reply element whose label, lower-cased, is `k`. */
  predicate LastLabelled(items: seq<Entry>, k: string, i: int) {
    0 <= i < |items| && KeyOf(items[i]) == k &&
    forall j :: i < j < |items| ==> KeyOf(items[j]) != k
  }

  /** The last element labelled `k` (in any case) is the last scaled
      element keyed `k`. */
  lemma ScaledLast(items: seq<Entry>, k: string, i: int)
    requires LastLabelled(items, k, i)
    ensures LastWithKey(ScaledAll(items), k, i)
    ensures ScaledAll(items)[i].score == items[i].score * 100.0
  {
  }

  /** No element labelled `k` means no scaled element keyed `k`. */
  lemma ScaledNone(items: seq<Entry>, k: string)
    requires forall i :: 0 <= i < |items| ==> KeyOf(items[i]) != k
    ensures forall i :: 0 <= i < |items| ==> ScaledAll(items)[i].emotion != k
  {
  }

  /** The score of a known key is read from its last labelled element. */
  lemma ScaledLastWins(table: Record, items: seq<Entry>, k: string, i: int)
    requires k in KeySet(table) && LastLabelled(items, k, i)
    ensures Get(Fold(table, ScaledAll(items)), k) == Some(items[i].score * 100.0)
  {
    ScaledLast(items, k, i);
    FoldLastWins(table, ScaledAll(items), k, i);
  }

  /** Each of the seven emotions scores 100 times the score of the last
      reply element carrying its label (in any case), and 0 when none
      does; so for duplicate labels the last one wins. */
  lemma ScoreTableValues(items: seq<Entry>, k: string)
    requires k in EmotionKeys
    ensures forall i :: LastLabelled(items, k, i) ==> Get(ScoreTable(items), k) == Some(items[i].score * 100.0)
    ensures (forall i :: 0 <= i < |items| ==> KeyOf(items[i]) != k) ==> Get(ScoreTable(items), k) == Some(0.0)
  {
    var xs := ScaledAll(items);
    KnownKeys(ZeroScores);
    forall i | LastLabelled(items, k, i)
      ensures Get(ScoreTable(items), k) == Some(items[i].score * 100.0)
    {
      ScaledLastWins(ZeroScores, items, k, i);
    }
    if forall i :: 0 <= i < |items| ==> KeyOf(items[i]) != k {
      ScaledNone(items, k);
      ZeroRecordValues(EmotionKeys);
      FoldUnmatched(ZeroScores, xs, k);
    }
  }

  /** The ranking: the three highest entries of the table. */
  function Ranking(table: Record): seq<Entry> {
    GetTopEmotions(table, 3)
  }

  /** With seven keys the ranking always has three entries, and its first
      entry is a known emotion with the largest score of the table. */
  lemma RankingLeadIsMaximal(table: Record)
    requires Keys(table) == EmotionKeys
    ensures |Ranking(table)| == 3
    ensures SortedDesc(Ranking(table))
    ensures Ranking(table)[0].emotion in EmotionKeys
    ensures forall e :: e in table ==> e.score <= Ranking(table)[0].score
  {
    assert |table| == 7;
    TopLeadIsMaximal(table, 3);
    var j :| 0 <= j < |table| && table[j] == Ranking(table)[0];
    assert Keys(table)[j] == EmotionKeys[j];
  }

  /** `handleUpload` up to its first `await`: without a file nothing
      happens; otherwise loading starts and a request goes out.  Neither
      button is disabled meanwhile. */
  function UploadBegin(p: Page): (p': Page)
    ensures p.file.None? ==> p' == p
    ensures p.file.Some? ==> p'.loading && p'.awaiting == p.awaiting + 1
    ensures p'.(loading := p.loading, awaiting := p.awaiting) == p
  {
    if p.file.None? then p else p.(loading := true, awaiting := p.awaiting + 1)
  }

  /** `handleUpload` after its awaits, given the parsed reply (or `None` on
      failure).  The file was checked before the request, so the reply is
      installed whatever the page holds now; loading ends either way. */
  function UploadReply(p: Page, reply: Option<Response>): (p': Page)
    ensures p.awaiting == 0 ==> p' == p
    ensures p.awaiting > 0 && (reply.None? || reply.value.items.None?) ==>
      p' == p.(loading := false, awaiting := p.awaiting - 1)
    ensures p.awaiting > 0 && reply.Some? && reply.value.items.Some? ==>
      && p'.scores == ScoreTable(reply.value.items.value)
      && p'.emotion == Some(Ranking(p'.scores)[0].emotion)
      && p'.file == p.file && p'.url == p.url && p'.playing == p.playing
      && !p'.loading && p'.awaiting == p.awaiting - 1
  {
    if p.awaiting == 0 then p
    else
      var done := p.(loading := false, awaiting := p.awaiting - 1);
      if reply.None? || reply.value.items.None? then done
      else
        var scores := ScoreTable(reply.value.items.value);
        ScoreTableKeys(reply.value.items.value);
        RankingLeadIsMaximal(scores);
        done.(emotion := Some(Ranking(scores)[0].emotion), scores := scores)
  }

  /** `handleUpload` when nothing happens while the request is out. */
  function HandleUpload(p: Page, reply: Option<Response>): (p': Page)
    ensures p.file.None? ==> p' == p
    ensures p.file.Some? && (reply.None? || reply.value.items.None?) ==>
      p' == p.(loading := false)
    ensures p.file.Some? && reply.Some? && reply.value.items.Some? ==>
      && p'.scores == ScoreTable(reply.value.items.value)
      && p'.emotion == Some(Ranking(p'.scores)[0].emotion)
      && p'.file == p.file && p'.url == p.url && p'.playing == p.playing
      && !p'.loading && p'.awaiting == p.awaiting
  {
    if p.file.None? then p else UploadReply(UploadBegin(p), reply)
  }

  /** `handleDelete`: forget the file, the emotion and the scores, and stop playing. */
  function HandleDelete(p: Page): (p': Page)
    ensures p'.file.None? && p'.url.None? && p'.emotion.None? && !p'.playing
    ensures Keys(p'.scores) == EmotionKeys
    ensures forall i :: 0 <= i < |p'.scores| ==> p'.scores[i].score == 0.0
    ensures p'.loading == p.loading && p'.awaiting == p.awaiting
  {
    ZeroRecordValues(EmotionKeys);
    p.(file := None, url := None, emotion := None, playing := false, scores := ZeroScores)
  }

  /** A delete while the request is out does not cancel it: the reply
      that follows names an emotion and installs scores for a page that
      no longer has a file. */
  lemma DeleteDuringUploadKeepsResult(p: Page, items: seq<Entry>)
    requires p.file.Some?
    ensures var q := UploadReply(HandleDelete(UploadBegin(p)), Some(Response(None, Some(items))));
      q.file.None? && q.emotion.Some? && q.scores == ScoreTable(items) && !q.loading
  {
  }

  // ---------------------------------------------------------------------
  // The legend: emoji keys laid out three to a row.
  // ---------------------------------------------------------------------

  /** Row `r` of the legend, `keys.slice(r * 3, r * 3 + 3)`. */
  function Row(keys: seq<string>, r: nat): seq<string>
    requires 3 * r <= |keys|
  {
    keys[3 * r .. SliceEnd(|keys|, 3 * r + 3)]
  }

  /** `Math.ceil(keys.length / 3)` rows of consecutive keys. */
  function LegendRows(keys: seq<string>): (rows: seq<seq<string>>)
    ensures |rows| == (|keys| + 2) / 3
  {
    seq((|keys| + 2) / 3, r requires 0 <= r < (|keys| + 2) / 3 => Row(keys, r))
  }

  function Flatten(rows: seq<seq<string>>): seq<string> {
    if rows == [] then [] else rows[0] + Flatten(rows[1..])
  }

  /** Past the first three keys the legend is its first row followed by
      the legend of the rest. */
  lemma LegendRowsShift(keys: seq<string>)
    requires |keys| > 3
    ensures LegendRows(keys) == [keys[..3]] + LegendRows(keys[3..])
  {
    var rows := LegendRows(keys);
    var rest := LegendRows(keys[3..]);
    forall r | 0 <= r < |rest| ensures rows[r + 1] == rest[r] {
      assert keys[3 * (r + 1) .. SliceEnd(|keys|, 3 * (r + 1) + 3)]
          == keys[3..][3 * r .. SliceEnd(|keys| - 3, 3 * r + 3)];
    }
  }

  /** The legend lists every key once, in order: its rows, read one after
      the other, are the keys, and each row holds one to three of them. */
  lemma {:induction false} LegendPartitionsKeys(keys: seq<string>)
    ensures Flatten(LegendRows(keys)) == keys
    ensures forall r :: 0 <= r < |LegendRows(keys)| ==> 1 <= |LegendRows(keys)[r]| <= 3
    decreases |keys|
  {
    var rows := LegendRows(keys);
    if |keys| > 3 {
      LegendRowsShift(keys);
      LegendPartitionsKeys(keys[3..]);
      assert rows[1..] == LegendRows(keys[3..]);
      assert keys == keys[..3] + keys[3..];
    } else if |keys| > 0 {
      assert |rows| == 1 && rows[0] == keys[0 .. |keys|] == keys;
      assert rows[1..] == [];
    }
  }

  /** The seven emoji keys make rows of 3, 3 and 1. */
  lemma LegendOfEmojiKeys()
    ensures LegendRows(EmotionKeys) ==
      [["happy", "sad", "angry"], ["neutral", "surprised", "fearful"], ["disgusted"]]
  {
    var rows := LegendRows(EmotionKeys);
    assert |rows| == 3;
    assert rows[0] == EmotionKeys[0..3] == ["happy", "sad", "angry"];
    assert rows[1] == EmotionKeys[3..6] == ["neutral", "surprised", "fearful"];
    assert rows[2] == EmotionKeys[6..7] == ["disgusted"];
  }
}

=== FILE: va_radar.dfy ===
/** The valence/arousal radar: a 300 x 300 SVG whose circle of radius 120
    around the centre holds the unit square of valence (left to right) and
    arousal (bottom to top; SVG's y axis points down). */
module VaRadar {

  import opened RollingAggregator

  const Width: real := 300.0
  const Height: real := 300.0
  const Cx: real := Width / 2.0
  const Cy: real := Height / 2.0
  const R: real := 120.0

  /** `normX`/`normY`: [0, 1] mapped onto [-1, 1]. */
  function Norm(v: real): (n: real)
    ensures 0.0 <= v <= 1.0 ==> -1.0 <= n <= 1.0
  {
    v * 2.0 - 1.0
  }

  /** The horizontal pixel of a valence. */
  function Px(valence: real): real {
    Cx + Norm(valence) * R
  }

  /** The vertical pixel of an arousal, growing downwards. */
  function Py(arousal: real): real {
    Cy - Norm(arousal) * R
  }

  /** The neutral point sits at the centre. */
  lemma CentreIsNeutral()
    ensures Px(0.5) == Cx == 150.0 && Py(0.5) == Cy == 150.0
  {
  }

  /** Values in [0, 1] land within the outer circle's bounding box. */
  lemma ProjectInBox(valence: real, arousal: real)
    requires 0.0 <= valence <= 1.0 && 0.0 <= arousal <= 1.0
    ensures Cx - R <= Px(valence) <= Cx + R && 30.0 <= Px(valence) <= 270.0
    ensures Cy - R <= Py(arousal) <= Cy + R && 30.0 <= Py(arousal) <= 270.0
  {
  }

  /** More valence is further right; more arousal is higher up, that is a
      smaller y. */
  lemma ProjectMonotone(v1: real, v2: real)
    ensures v1 < v2 <==> Px(v1) < Px(v2)
    ensures v1 < v2 <==> Py(v1) > Py(v2)
  {
  }

  /** Pixels back to values. */
  function ValenceAt(px: real): real {
    ((px - Cx) / R + 1.0) / 2.0
  }

  function ArousalAt(py: real): real {
    ((Cy - py) / R + 1.0) / 2.0
  }

  /** The projection loses nothing: reading a drawn point back gives the
      values it was drawn from, and drawing a read-back pixel gives that
      pixel. */
  lemma ProjectRoundTrip(valence: real, arousal: real, px: real, py: real)
    ensures ValenceAt(Px(valence)) == valence && ArousalAt(Py(arousal)) == arousal
    ensures Px(ValenceAt(px)) == px && Py(ArousalAt(py)) == py
  {
  }

  /** How a point is painted. */
  datatype Fill = Red | Gray
  datatype Dot = Dot(x: real, y: real, radius: real, fill: Fill, opacity: real)

  /** One point of the trail as a circle of radius 6: the newest red and
      opaque, the others gray at 0.4. */
  function DotOf(p: VadPoint): (d: Dot)
    ensures d.x == Px(p.valence) && d.y == Py(p.arousal) && d.radius == 6.0
    ensures p.isNew <==> d.fill == Red
    ensures d.opacity == if p.isNew then 1.0 else 0.4
  {
    Dot(Px(p.valence), Py(p.arousal), 6.0, if p.isNew then Red else Gray,
        if p.isNew then 1.0 else 0.4)
  }

  /** Every point of the trail, in order. */
  function Dots(trail: seq<VadPoint>): (ds: seq<Dot>)
    ensures |ds| == |trail| && forall i :: 0 <= i < |trail| ==> ds[i] == DotOf(trail[i])
  {
    seq(|trail|, i requires 0 <= i < |trail| => DotOf(trail[i]))
  }

  /** After the analyzer adds a point to a trail whose points are all in
      the unit square, the radar draws every point inside the outer box,
      the newest one red and all the others gray. */
  lemma RadarAfterAddingPoint(trail: seq<VadPoint>, valence: real, arousal: real, timestamp: int)
    requires forall i :: 0 <= i < |trail| ==> InUnitSquare(trail[i])
    ensures var ds := Dots(AddVadPoint(trail, valence, arousal, timestamp));
      && |ds| == |trail| + 1
      && ds[|trail|].fill == Red
      && (forall i :: 0 <= i < |trail| ==> ds[i].fill == Gray)
      && (forall i :: 0 <= i < |ds| ==> 30.0 <= ds[i].x <= 270.0 && 30.0 <= ds[i].y <= 270.0)
  {
    var t := AddVadPoint(trail, valence, arousal, timestamp);
    AddVadPointMarksOnlyLast(trail, valence, arousal, timestamp);
    forall i | 0 <= i < |t| ensures 30.0 <= Px(t[i].valence) <= 270.0 && 30.0 <= Py(t[i].arousal) <= 270.0 {
      ProjectInBox(t[i].valence, t[i].arousal);
    }
  }
}

=== FILE: wrappers.dfy ===
/** Optional values, used for the JavaScript `undefined`/`null` cases and
    for operations that can fail (a rejected fetch, an unparsable reply). */
module Wrappers {

  datatype Option<+T> = None | Some(value: T) {

    /** The value, or `default` when absent (the `?? default` of the source). */
    function GetOr(default: T): T {
      match this
      case Some(v) => v
      case None => default
    }
  }
}
